=== FILE: README.md ===
# QED deduction engine in Dafny

QED is a browser game for learning natural deduction. The player selects
sentences, environments and terms. The game lists every deduction an unlocked
law allows from that selection. Choosing one appends a line to the proof.
Reaching the conclusion of the current exercise solves it and unlocks the
exercise's law for later use.

This project models the engine behind that loop. It has two parts:
- from `logic.js`: terms, sentences, assumptions and contexts with their display
  texts, the law registry, the matcher and the substitution engine, and the
  legality check;
- from `gui.js`: the state the game keeps about the current proof, which is the
  proof pane, the undo button, the deductions pane, the exercise, and the
  unlocking of laws.

Modules, in dependency order:

- `Outcomes` (outcomes.dfy): `Outcome<T>`. It is either a value or a `Fault`, and
  stands for the places where the source throws or hands `undefined` to code
  that then fails. `Option<T>` is also defined here.
- `Ast` (ast.dfy): operators, predicates, terms and sentences; their short and
  long texts; the generators of new variable names.
- `Environments` (environment.dfy): assumptions (the `assuming`, `letting` and
  `setting` frames), environments and contexts. It also holds the canonical
  environment text (`assumptionListToString`), context names, `listToString`,
  the conversions `toTerm`/`toAssumption`/`toContext`, and `assuming`.
- `Primitives` (primitives.dfy): `listPrimitives` and the three
  `pushPrimitivesFrom*` walks, each as the list it builds.
- `Substitution` (substitution.dfy): `freeToBound`, `boundToTerm`,
  `subsSentence`, `subsEnvironment` and `subs`. Each is related to a clean
  renaming or replacement and to an "is an instance of" relation.
- `Legality` (legality.dfy): `isLegalSentence` and `isLegal`, each related to a
  declarative admissibility predicate.
- `Matcher` (matcher.dfy): `matchWithGivens` and every `matchWith*` helper,
  including the two universal-introduction laws and universal specification.
  The source's mutable `output` object is threaded through as a value.
- `Registry` (registry.dfy): the `Law` class, which carries its index and its
  clone, and the registry of created and unlocked laws (`unlock`).
- `Workspace` (workspace.dfy): the exercise and the proof workspace.
  - `makeMatches` and `appendToDeductions`;
  - `deduce` and `appendToProof`, with the undo snapshot, the circularity star,
    the victory line and the length records;
  - the undo button;
  - the new free and bound variable buttons.

Imperative code of the source stays imperative: the string-building loops, the
loops of `matchWithGivens`, `subsEnvironment` and `isLegal`, the name pickers
and the whole of `gui.js`. Each such method is proved equal to a function (or a
pair of functions), and the lemmas are stated about that function. In
`makeMatches`, for example:
- the function is `Scan`;
- `ScanSound` says every listed deduction comes from some unlocked law, in one
  of the two argument orders, and has a legal conclusion;
- `ScanComplete` says every deduction a law offers is listed.

## Model

| member | source | states |
|---|---|---|
| Ast.OperatorTerm | logic.js:139-164 | the term applies exactly this operator to exactly the given arguments; an addition-style operator's short text is its two arguments' long texts around the italic name and its long text parenthesises that; otherwise both texts coincide and are the italic name alone for arity 0, or the italic name followed by the arguments' short texts, comma-separated, in parentheses |
| Ast.PredicateSentence | logic.js:225-253 | the sentence applies exactly this predicate to exactly the given terms; a relation-style predicate is written between its two arguments' long texts and parenthesised in its long text; otherwise both texts coincide and are the italic name for arity 0, or the italic name followed by the arguments' short texts, comma-separated, in parentheses |
| Ast.TermShort | logic.js:106-172 | the definition of a term's shortText as the term constructors set it: the italic name for a free or bound variable, the text itself for a primitive term, and the three operator cases of operatorTerm; a definition with no further contract |
| Ast.TermLong | logic.js:117-172 | the definition of a term's longText: the short text in parentheses for an addition-style operator, the short text itself otherwise; a definition with no further contract |
| Ast.ShortText | logic.js:213-361 | the definition of a sentence's shortText: the emphasised name for an atomic sentence, the three predicate cases, the operands' long texts around AND, OR, IMPLIES or IFF, "NOT " before the operand's long text, TRUE, FALSE, and FOR ALL or THERE EXISTS with the binder's text and the body's long text; a definition with no further contract |
| Ast.LongText | logic.js:256-361 | the definition of a sentence's longText: the short text in parentheses for connectives, quantifiers and relation-style predicates, the short text itself for the rest; a definition with no further contract |
| Ast.Primes | logic.js:53-64 | the suffix has exactly k characters, all primes |
| Ast.FreeVariableName | logic.js:53-64 | the loop yields x, y, z followed by i div 3 primes (`j < (i-2)/3` over the reals counts exactly i div 3 values of j) |
| Ast.BoundVariableName | logic.js:80-91 | the same with X, Y, Z |
| Ast.NamesInjective | logic.js:53-91 | different indices give different names in each namespace |
| Ast.NamespacesDisjoint | logic.js:53-91 | no free-variable name equals a bound-variable name |
| Ast.NamesCounted | gui.js:492-541 | if the first k names are all taken then at least k names are in use, so the name search terminates |
| Ast.FreshIndex | gui.js:492-541 | the index found is at least the start, its name is unused and every earlier name is used (the least fresh index) |
| Ast.FreshIndexFrom | gui.js:492-541 | restarting the search at any index whose predecessors are taken finds the same name |
| Environments.AssumptionListToString | logic.js:1070-1114 | the loop computes the canonical environment text: "root environment" for the empty list, otherwise the walk over the frames |
| Environments.WalkShape | logic.js:1070-1114 | after any frame the long text is the short text plus ", "; after a letting frame the short text is the pending variable list plus " be arbitrary" |
| Environments.AssumingMerges | logic.js:1070-1114 | an assuming frame after an assuming frame only adds ", " and its sentence |
| Environments.AssumingStartsGroup | logic.js:1070-1114 | after any other frame an assuming frame adds ", assuming " and its sentence |
| Environments.LettingMerges | logic.js:1070-1114 | a letting frame after a letting frame joins the variable list before " be arbitrary" |
| Environments.LettingStartsGroup | logic.js:1070-1114 | after any other frame a letting frame adds ", letting x be arbitrary" |
| Environments.SettingStandsAlone | logic.js:1070-1114 | a setting frame always adds ", setting x s.t. A" |
| Environments.SeparatedIsJoined | logic.js:10-20 | appending every name with ", " gives the ", "-joined names followed by ", " |
| Environments.ListToString | logic.js:10-20 | the loop and the final cut of two characters give the names joined by ", " (the empty list gives "") |
| Environments.ConversionsAgree | logic.js:176-187 | toContext agrees with toTerm on terms and bound variables, with toAssumption on free variables and sentences, and each conversion refuses exactly the kinds it does not recognise |
| Environments.ContextName | logic.js:1131-1154 | the definition of Context.name: 'formula "s"', 'term "t"', the environment's text in brackets, and a sentence's short text followed by its environment's text in brackets unless that is the root environment; a definition with no further contract, whose partners are the two lemmas below |
| Environments.SentenceNamesAgree | logic.js:1131-1154 | for one sentence, two environments give the same name exactly when both are the root environment or both have the same text, so the victory check tells environments apart by their text |
| Environments.KindsNamedApart | logic.js:1131-1142 | a formula, a term and an environment context never share a name, so none of them reaches the conclusion of an exercise of another of these kinds |
| Environments.Assume | logic.js:1210-1221 | assuming a formula or a sentence in an environment gives the same sentence with the new frame outermost and the old frames after it; the other two kinds are refused, where the source wraps a blank sentence (see Left out) |
| Primitives.AddNewSpec | logic.js:428-519 | pushing each name not yet present keeps the list as a prefix, adds exactly the new names and never creates a repeat |
| Primitives.AddNewAppend | logic.js:428-519 | pushing two lists of names in turn is pushing their concatenation |
| Primitives.PushPrimitivesFromTerm | logic.js:484-519 | the recursive walk adds exactly the term's names of the requested kinds, in first-occurrence order |
| Primitives.PushPrimitivesFromSentence | logic.js:455-481 | the same for a sentence, including a quantifier's bound variable |
| Primitives.PushPrimitivesFromContext | logic.js:428-452 | the same for a context: its sentence and then the frames of its environment, or its term |
| Primitives.ListPrimitives | logic.js:413-425 | the placeholder list has no repeats and holds exactly the names of the givens and the conclusion |
| Substitution.FreeToBoundIsRename | logic.js:679-718 | freeToBound fails exactly on the sentences its type tests do not rebuild, and otherwise is the renaming of the free variable to the bound one |
| Substitution.FreeToBoundTermsIsRename | logic.js:679-718 | the same for an argument list: it fails on an operator term and otherwise renames each argument |
| Substitution.BoundToTermIsReplace | logic.js:756-795 | boundToTerm fails exactly on the same sentences and otherwise replaces the bound variable by the term |
| Substitution.BoundToTermTermsIsReplace | logic.js:756-795 | the same for an argument list |
| Substitution.RenameFreeVars | logic.js:679-718 | after the renaming the free variable is gone, the other free variables stay, and the bound variable appears exactly when the free one occurred |
| Substitution.RenameFreeTermVars | logic.js:679-718 | the same for a term |
| Substitution.RenameFreeRoundTrip | logic.js:679-795 | replacing a fresh bound variable by the free variable undoes the renaming (boundToTerm inverts freeToBound) |
| Substitution.RenameFreeTermRoundTrip | logic.js:679-795 | the same for a term |
| Substitution.RenameFreeHandled | logic.js:679-718 | the renaming neither creates nor removes a node the rewrites refuse |
| Substitution.ReplaceBoundVars | logic.js:756-795 | replacing adds no free variable beyond the term's, and adds all of the term's when the bound variable occurs |
| Substitution.ReplaceBoundTermVars | logic.js:756-795 | the same for a term |
| Substitution.SubsSentenceInstantiates | logic.js:925-990 | subsSentence yields r exactly when r is the template with every placeholder replaced by its binding |
| Substitution.SubsEnvironmentLoop | logic.js:994-1009 | the loop over the frames equals the frame-wise substitution, stopping at the first failure |
| Substitution.SubsFramesInstantiate | logic.js:994-1009 | a successful substitution of frames is an instance of the template frames |
| Substitution.SubsShape | logic.js:1013-1028 | subs keeps the template's kind, prefixes the ambient environment to the instantiated frames and instantiates the sentence |
| Legality.IsLegal | logic.js:1265-1299 | the loop over the frames equals the legality function |
| Legality.LegalTermIff | logic.js:1226-1257 | a term is legal exactly when its free variables are all introduced (unless any are allowed) and its bound variables are all in scope (unless unbound ones are allowed) |
| Legality.LegalSentenceIff | logic.js:1226-1257 | isLegalSentence returns true exactly when the sentence is admissible: free variables introduced, bound variables in scope and no quantifier rebinding a variable already bound |
| Legality.QuantifierIff | logic.js:1226-1257 | the quantifier case of the same equivalence |
| Legality.LegalFramesIff | logic.js:1265-1299 | the frames are legal exactly when each assumed or set sentence is admissible under the variables introduced before it and no letting or setting reintroduces a variable |
| Legality.LegalIff | logic.js:1265-1299 | isLegal returns true exactly when the context is admissible |
| Legality.RootSentenceClosed | logic.js:1265-1299 | a legal sentence in the root environment has no free variables and no unbound bound variables |
| Matcher.Bind | logic.js:838-851 | binding a placeholder succeeds exactly when it is unbound or already bound to the same value, keeps every other binding and records the value |
| Matcher.ChooseBoundVariable | logic.js:656-670 | the do-while picks the least bound-variable name not used in the statement |
| Matcher.FirstUnusedBound | logic.js:661-668 | the do-while over X, Y, Z, X', ... stops at the first name not in the list of taken names, which is the least bound-variable name outside that list |
| Matcher.MatchGivens | logic.js:534-616 | the loops of matchWithGivens compute the matching function |
| Matcher.InferAmbient | logic.js:563-590 | the loop over the givens yields the root environment when all are formulas, and otherwise the prefix InferPrefix infers (whose soundness and completeness are stated below), or none when an argument is too shallow or two candidates print differently |
| Matcher.MatchAndCheck | logic.js:592-615 | the givens are matched in order (or the special law's matcher runs), the conclusion is substituted, and a conclusion that fails isLegal turns the match off, exactly as the matching function continues after the ambient environment |
| Matcher.MatchSentenceSound | logic.js:856-896 | a match only adds bindings, and a standing match means the sentence has the template's shape with each placeholder position showing the short text of its binding (the source compares texts, which do not always determine the sentence) |
| Matcher.MatchSentenceComplete | logic.js:856-896 | a sentence that is the template under the current bindings matches without changing them |
| Matcher.MatchSentenceIdempotent | logic.js:856-896 | matching again with the bindings of a successful match changes nothing |
| Matcher.MatchBinderSound | logic.js:856-896 | a quantifier's binder match changes nothing or fails |
| Matcher.MatchTermNodeSound | logic.js:856-896 | a term node inside a sentence matches only when the shapes agree, and never binds |
| Matcher.MatchTermArgsSound | logic.js:856-896 | the same for an argument list |
| Matcher.MatchTermNodeComplete | logic.js:856-896 | terms of the same shape match |
| Matcher.MatchTermArgsComplete | logic.js:856-896 | argument lists of the same shape match |
| Matcher.MatchedByStable | logic.js:856-896 | a matched sentence stays matched when later steps add bindings |
| Matcher.InstanceMatched | logic.js:856-990 | every instance of a propositional template matches it under the same bindings |
| Matcher.SubsThenMatch | logic.js:856-990 | substituting the bindings into a propositional template and matching the result gives back the same output |
| Matcher.MatchTermSound | logic.js:900-921 | a term-context match only adds bindings and, when it succeeds, a variable template is bound to the variable |
| Matcher.MatchAssumptionSound | logic.js:825-852 | a frame match only adds bindings and, when it succeeds, the frame kinds agree, the sentence matches and the variable is bound |
| Matcher.MatchFramesSound | logic.js:808-814 | the frame loop only adds bindings and, when it succeeds, every template frame matches the frame after the ambient environment |
| Matcher.MatchGivenSound | logic.js:800-821 | a given matches only a context of its own kind, and then its frames and its sentence or term |
| Matcher.MatchGivensFromSound | logic.js:596-604 | the loop over the givens only adds bindings and, when it succeeds, every argument matches its given |
| Matcher.InferPrefixSound | logic.js:564-590 | the inferred ambient environment leaves each environment-carrying argument's extra frames, and all of them agree in text |
| Matcher.InferPrefixComplete | logic.js:564-590 | if all candidates agree with an environment, the inference keeps it |
| Matcher.MatchSound | logic.js:534-616 | a successful match had the right arity and has a legal conclusion, a placeholder set equal to the law's names, and the ambient environment every given's frames agree on; for an ordinary law every argument matches its given and the conclusion is the law's conclusion with the bindings put in |
| Matcher.MatchLawSound | logic.js:592-607 | the law-specific match keeps the placeholders and the environment, and for an ordinary law a match means every given matched and the conclusion is substituted |
| Matcher.SubsReadsBindings | logic.js:1013-1028 | subs depends only on the bindings and the ambient environment |
| Matcher.UniversalIntroductionSound | logic.js:619-675 | universal introduction needs a sentence whose next frame lets x be arbitrary and a bound-variable term X, and concludes "for all X" of the sentence with x renamed to X, in the ambient environment |
| Matcher.UniversalIntroduction2Sound | logic.js:619-675 | the second form takes an environment instead and uses the first bound-variable name not in the sentence |
| Matcher.UniversalSpecificationSound | logic.js:722-752 | universal specification needs a "for all" sentence and a term, and concludes the body with the bound variable replaced by the term |
| Matcher.SpecificationUndoesIntroduction | logic.js:619-752 | specifying a universally introduced sentence at the variable it generalised gives back the original sentence |
| Registry.CloneRule | logic.js:401-408 | a law gets a clone exactly when its givens are all formulas and its conclusion carries an environment; the clone has the root environment as an extra given |
| Registry.CloneHasNoClone | logic.js:401-408 | a clone never gets a clone of its own |
| Registry.Registry.NewLaw | logic.js:380-409 | the new law takes the next index, is locked, and has a clone with the following index exactly when the clone rule applies; the registry stays consistent |
| Registry.Registry.Unlock | gui.js:981-997 | unlocking an unlocked law changes nothing; otherwise the law and then its clone are marked and listed once, in that order, and no other law changes |
| Workspace.AttemptSound | gui.js:1115-1120 | one attempt lists at most one deduction, and that deduction is the law's match for those arguments with the law's name, its star and a legal conclusion |
| Workspace.TryLawSound | gui.js:1111-1130 | each deduction a law contributes uses the selection or, for two, its reversal, and is the law's match with a legal conclusion |
| Workspace.TryLawComplete | gui.js:1111-1130 | every match of the law in either order is listed |
| Workspace.ScanSound | gui.js:1097-1144 | every listed deduction comes from an unlocked law in one of the two orders and has a legal conclusion |
| Workspace.ScanComplete | gui.js:1097-1144 | every deduction an unlocked law offers from the selection is listed |
| Workspace.CollectSound | gui.js:1111-1130 | concatenating the laws' contributions loses and invents nothing |
| Workspace.JustificationSentences | gui.js:735 | the proof line lists exactly the selected sentences in environments |
| Workspace.RecordAfter | gui.js:790-801 | the stored length for the exercise becomes the new length when there was none or it was longer, never increases, and other exercises' records are untouched |
| Workspace.Exercise.constructor | gui.js:1001-1020 | the exercise's law is created under the law name, or the exercise name when that is empty, locked, with the next index; its clone exists exactly when the rule has one and is registered locked with the index after it; nothing is unlocked; personal best 1000 |
| Workspace.Workspace.constructor | gui.js:183-193 | a fresh workspace has an empty proof, nothing to undo and no deductions |
| Workspace.Workspace.AppendToDeductions | gui.js:945-973 | the deduction is listed with a star, and the pane flagged, exactly when the law's index is at or after the exercise's law |
| Workspace.Workspace.TryOrder | gui.js:1115-1120 | one matching attempt lists exactly what Attempt specifies |
| Workspace.Workspace.TryUnlockedLaw | gui.js:1111-1130 | one pass of the loop lists exactly the law's contribution and counts it |
| Workspace.Workspace.MakeMatches | gui.js:1097-1144 | selecting disables undo, clears the deductions and lists exactly the Scan of the unlocked laws; the count is its length and the pane is flagged exactly when some listed deduction is starred |
| Workspace.Workspace.AppendToProof | gui.js:198-209 | one more proof line, counted, and remembered for undo |
| Workspace.Workspace.Deduce | gui.js:721-822 | snapshot for undo; a formula or term changes no pane; otherwise the proof gets the starred or plain line, the victory line when the exercise's conclusion is reached (which also forbids undo, unlocks the law as unlocking does — appended with its clone when it was locked, every other law's flag unchanged — and records a non-circular length and personal best); undo always rewinds exactly the new lines; the personal best never increases |
| Workspace.Workspace.Conclude | gui.js:721-760 | the pane part of deduce: the same post-state without the registry |
| Workspace.Workspace.Solved | gui.js:754-811 | the victory branch: the QED line (marked again when already solved), no undo, solved, and the record and personal best updated only for a non-circular proof |
| Workspace.Workspace.Undo | gui.js:75-87 | refused unless allowed; otherwise the counter and circularity flag return to the snapshot, exactly the last deduction's lines go, and undo is disabled |
| Workspace.WindowNamesSpec | gui.js:492-517 | the scan of the term window fails exactly when some term has no first argument, and otherwise collects exactly the variables' names |
| Workspace.NewVariableName | gui.js:492-541 | the new name is not used in the term window and is the first unused name of its sequence; it fails exactly when the scan fails |
| Workspace.PickName | gui.js:492-541 | the nested do-while loops compute that name |

## Left out

- Rendering, the page's boxes and drag and drop (`addContext`, `newSentenceBox`,
  `getEnvironment`, `listAssumptions` and the box branches of `toContext`): boxes
  are not part of this model. Deduce therefore does not add the new context to a
  box, and undo removes only proof lines, not the boxes a deduction created.
- `localStorage` is reduced to the map of best lengths. Saved unlocks, saved
  solved flags, saved proofs and saved personal bests are not read back.
- Notifications, alerts, achievements, exercise activation (`newExercises`),
  `completionMsg`, the comparison with `bestLength`, `completedAllExercises`,
  `colorExerciseButton`, `setExercise` and the shortest-proof messages are left
  out, because they only display text.
- Workspace.Workspace.Deduce: the model unlocks the exercise's law before the
  pane updates. The source appends the proof lines first. Unlocking touches only
  the registry and the laws, and the rest touches only the panes and the
  exercise, so the order cannot be observed.
- Workspace.Workspace.Deduce: the double-click guard (`lastClickedButton`) and the
  `QED!` line's HTML are left out. A proof line is kept as structured data
  (`Step`, `Qed`) rather than as text.
- Environments.ToContext: the source shows an error notice and returns an empty
  `Context` object for an unrecognised item. The model reports a `TypeMismatch`
  fault.
- The substitution rewrites refuse operator terms and existentials. They test
  for the subtypes "operator" and "there exists " (with a trailing space), which
  no node has. The model keeps this behaviour as written: `Unhandled` marks these
  nodes, and the rewrite reports `UndefinedOutput` where the source sets
  `output.matches` on an undeclared global and returns `undefined`.
- Variables are compared by name; the source compares object identity in some
  places. Two distinct variable objects with the same name are not
  distinguished.
- The makeMatches loop stops at the first law whose matching faults. In the
  source, such an exception escapes the `forEach`.
- Environments.Assume: for a term context or an environment context the source
  builds a sentence in environment around the blank sentence that every new
  `Context` holds (logic.js:1127), with the new frame in front of the context's
  frames (none for a term). The model has no blank sentence, reports
  `TypeMismatch` for these two kinds, and so does not promise that result.
- Substitution.SubsSentenceInstantiates: an atomic placeholder bound to no
  sentence is replaced in the source by whatever the output holds for it, the
  unset mark "" for an unbound one (logic.js:949-950). The model refuses it with
  `TypeMismatch`, so it does not promise the source's result there. In the
  source, a sentence in environment built on "" passes the legality test
  (logic.js:1256) and is offered as a deduction whose name shows "undefined"
  where the placeholder stood; a formula that is just such a placeholder
  (`formulaContext("")`) holds no sentence and fails once its name is taken.
- Workspace.Workspace.MakeMatches: because of the refusal above, a law whose
  conclusion has a sentence placeholder that its givens do not bind ends the scan
  in the model. The source lists the deduction with "undefined" in it for a
  sentence in environment and carries on with the next law.
- Primitives.PushPrimitivesFromSentence: when a quantifier's slot holds a term
  (as after a substitution), the source pushes `undefined` as the bound
  variable's name. The model adds no name for such a slot.
- `deductionString`, `law.string` and `law.desc` (display only) are not modelled.

=== FILE: ast.dfy ===
/** Terms and sentences of the trainer's logic, with their display texts.
    Every node is an immutable value; its short text (used standalone) and long text
    (used inside a larger node) are fixed compositions of its children's texts.
    Free and bound variables are identified by their names. */
module Ast {

  /** A function symbol. `additionStyle` operators are written between their two
      arguments (`x + y`), the others as `f(x, y)`. */
  datatype Operator = Operator(name: string, arity: nat, additionStyle: bool)

  /** A relation symbol. `relationStyle` predicates are written between their two
      arguments (`x = y`), the others as `P(x, y)`. */
  datatype Predicate = Predicate(name: string, arity: nat, relationStyle: bool)

  /** A term. The four cases are the term subtypes "free variable",
      "bound variable", "primitive" and "operator evaluation". */
  datatype Term =
    | FreeVar(free: string)
    | BoundVar(bound: string)
    | PrimitiveTerm(text: string)
    | OperatorEval(op: Operator, args: seq<Term>)

  /** The slot of a quantifier that names its variable. The sentence constructors put
      the bound variable itself there; the substitution engine puts the term it
      obtains from the binding map, which is a different kind of object. */
  datatype Binder = BinderVar(name: string) | BinderTerm(term: Term)

  datatype BinaryKind = And | Or | Implies | Iff

  datatype Sentence =
    | Atomic(name: string)
    | PredicateApp(pred: Predicate, args: seq<Term>)
    | Binary(kind: BinaryKind, left: Sentence, right: Sentence)
    | Not(arg: Sentence)
    | True
    | False
    | ForAll(body: Sentence, binder: Binder)        // note the order: body first, as in forAll(body, bound)
    | ThereExists(body: Sentence, binder: Binder)

  // ----- display texts -----

  function Italic(name: string): string { "<I>" + name + "</I>" }

  function KindWord(k: BinaryKind): string {
    match k
    case And => "AND"
    case Or => "OR"
    case Implies => "IMPLIES"
    case Iff => "IFF"
  }

  /** The texts joined by ", ", as the source builds them: each followed by ", "
      and the last two characters cut off. */
  function Join(texts: seq<string>): string {
    if |texts| == 0 then ""
    else if |texts| == 1 then texts[0]
    else texts[0] + ", " + Join(texts[1..])
  }

  /** The texts of a term written standalone and nested. For an operator whose
      argument list is shorter than its style needs, the source fails when it
      builds the term; the model gives such a term the operator's own text. */
  function TermShort(t: Term): string
    decreases t, 0
  {
    match t
    case FreeVar(n) => Italic(n)
    case BoundVar(n) => Italic(n)
    case PrimitiveTerm(text) => text
    case OperatorEval(op, args) =>
      if op.additionStyle && |args| >= 2 then
        TermLong(args[0]) + " " + Italic(op.name) + " " + TermLong(args[1])
      else if op.additionStyle || op.arity == 0 || |args| == 0 then Italic(op.name)
      else Italic(op.name) + "(" + Join(seq(|args|, i requires 0 <= i < |args| => TermShort(args[i]))) + ")"
  }

  function TermLong(t: Term): string
    decreases t, 1
  {
    if t.OperatorEval? && t.op.additionStyle && |t.args| >= 2 then "(" + TermShort(t) + ")"
    else TermShort(t)
  }

  function BinderShort(b: Binder): string {
    match b
    case BinderVar(n) => Italic(n)
    case BinderTerm(t) => TermShort(t)
  }

  /** True of the sentences whose long text is their short text in parentheses. */
  predicate Compound(s: Sentence) {
    match s
    case PredicateApp(p, args) => p.relationStyle && |args| >= 2
    case Binary(_, _, _) => true
    case Not(_) => true
    case ForAll(_, _) => true
    case ThereExists(_, _) => true
    case _ => false
  }

  function ShortText(s: Sentence): string
    decreases s, 0
  {
    match s
    case Atomic(name) => "<em>" + name + "</em>"
    case PredicateApp(p, args) =>
      if p.relationStyle && |args| >= 2 then
        TermLong(args[0]) + " " + Italic(p.name) + " " + TermLong(args[1])
      else if p.relationStyle || p.arity == 0 || |args| == 0 then Italic(p.name)
      else Italic(p.name) + "(" + Join(seq(|args|, i requires 0 <= i < |args| => TermShort(args[i]))) + ")"
    case Binary(k, a, b) => LongText(a) + " " + KindWord(k) + " " + LongText(b)
    case Not(a) => "NOT " + LongText(a)
    case True => "TRUE"
    case False => "FALSE"
    case ForAll(body, b) => "FOR ALL " + BinderShort(b) + ": " + LongText(body)
    case ThereExists(body, b) => "THERE EXISTS " + BinderShort(b) + ": " + LongText(body)
  }

  function LongText(s: Sentence): string
    decreases s, 1
  {
    if Compound(s) then "(" + ShortText(s) + ")" else ShortText(s)
  }

  // ----- smart constructors with the source's demands on their arguments -----

  /** operatorTerm: the source reads exactly `arity` arguments and, for an
      operator written between its arguments, the first two. */
  function OperatorTerm(op: Operator, args: seq<Term>): (t: Term)
    requires |args| == op.arity
    requires op.additionStyle ==> op.arity == 2
    ensures t.OperatorEval? && t.op == op && t.args == args
    ensures op.additionStyle ==> TermShort(t) == TermLong(args[0]) + " " + Italic(op.name) + " " + TermLong(args[1])
                                 && TermLong(t) == "(" + TermShort(t) + ")"
    ensures !op.additionStyle ==> TermLong(t) == TermShort(t)
    ensures !op.additionStyle && op.arity == 0 ==> TermShort(t) == Italic(op.name)
    ensures !op.additionStyle && op.arity > 0 ==>
      TermShort(t) == Italic(op.name) + "(" + Join(seq(|args|, i requires 0 <= i < |args| => TermShort(args[i]))) + ")"
  {
    OperatorEval(op, args)
  }

  /** predicateSentence, under the same demands on its arguments. */
  function PredicateSentence(p: Predicate, args: seq<Term>): (s: Sentence)
    requires |args| == p.arity
    requires p.relationStyle ==> p.arity == 2
    ensures s.PredicateApp? && s.pred == p && s.args == args
    ensures p.relationStyle ==> ShortText(s) == TermLong(args[0]) + " " + Italic(p.name) + " " + TermLong(args[1])
                                && LongText(s) == "(" + ShortText(s) + ")"
    ensures !p.relationStyle ==> LongText(s) == ShortText(s)
    ensures !p.relationStyle && p.arity == 0 ==> ShortText(s) == Italic(p.name)
    ensures !p.relationStyle && p.arity > 0 ==>
      ShortText(s) == Italic(p.name) + "(" + Join(seq(|args|, i requires 0 <= i < |args| => TermShort(args[i]))) + ")"
  {
    PredicateApp(p, args)
  }

  // ----- names for new variables -----

  function Primes(k: nat): (r: string)
    ensures |r| == k && forall i :: 0 <= i < k ==> r[i] == '\''
  {
    if k == 0 then "" else Primes(k - 1) + "'"
  }

  function FreeLetter(i: nat): char { if i % 3 == 0 then 'x' else if i % 3 == 1 then 'y' else 'z' }
  function BoundLetter(i: nat): char { if i % 3 == 0 then 'X' else if i % 3 == 1 then 'Y' else 'Z' }

  /** The i-th free-variable name: x, y, z, x', y', z', x'', ... */
  function FreeName(i: nat): string { [FreeLetter(i)] + Primes(i / 3) }

  /** The i-th bound-variable name: X, Y, Z, X', Y', Z', X'', ... */
  function BoundName(i: nat): string { [BoundLetter(i)] + Primes(i / 3) }

  /** FreeVariableName: the letter for i mod 3, then one prime for every integer j
      with 0 <= j < (i - 2) / 3 over the reals. */
  method FreeVariableName(i: nat) returns (name: string)
    ensures name == FreeName(i)
  {
    name := [FreeLetter(i)];
    var j := 0;
    while 3 * j < i - 2
      invariant j <= i / 3
      invariant name == [FreeLetter(i)] + Primes(j)
    {
      name := name + "'";
      j := j + 1;
    }
  }

  /** BoundVariableName: as FreeVariableName with capital letters. */
  method BoundVariableName(i: nat) returns (name: string)
    ensures name == BoundName(i)
  {
    name := [BoundLetter(i)];
    var j := 0;
    while 3 * j < i - 2
      invariant j <= i / 3
      invariant name == [BoundLetter(i)] + Primes(j)
    {
      name := name + "'";
      j := j + 1;
    }
  }

  /** A name determines its index: the letter gives i mod 3, the primes i div 3. */
  lemma {:induction false} NamesInjective(i: nat, j: nat)
    requires i != j
    ensures FreeName(i) != FreeName(j)
    ensures BoundName(i) != BoundName(j)
  {
    assert i == 3 * (i / 3) + i % 3 && j == 3 * (j / 3) + j % 3;
    if i / 3 == j / 3 {
      assert i % 3 != j % 3;
      assert FreeName(i)[0] != FreeName(j)[0];
      assert BoundName(i)[0] != BoundName(j)[0];
    } else {
      assert |FreeName(i)| != |FreeName(j)|;
      assert |BoundName(i)| != |BoundName(j)|;
    }
  }

  /** The i-th name of either namespace. */
  function VariableName(i: nat, bound: bool): string {
    if bound then BoundName(i) else FreeName(i)
  }

  /** Distinct indices give distinct names, so k names all taken from `used` need
      at least k members in it. */
  lemma {:induction false} NamesCounted(k: nat, used: set<string>, bound: bool)
    requires forall m :: 0 <= m < k ==> VariableName(m, bound) in used
    ensures k <= |used|
  {
    if k > 0 {
      var rest := used - {VariableName(k - 1, bound)};
      forall m | 0 <= m < k - 1 ensures VariableName(m, bound) in rest {
        NamesInjective(m, k - 1);
      }
      NamesCounted(k - 1, rest, bound);
    }
  }

  /** The least index from n on whose name is not in `used`, when every index below
      n is taken. */
  function FreshIndex(used: set<string>, n: nat, bound: bool): (r: nat)
    requires forall m :: 0 <= m < n ==> VariableName(m, bound) in used
    ensures n <= r && VariableName(r, bound) !in used
    ensures forall m :: 0 <= m < r ==> VariableName(m, bound) in used
    decreases |used| - n
  {
    NamesCounted(n, used, bound);
    if VariableName(n, bound) !in used then n
    else
      NamesCounted(n + 1, used, bound);
      FreshIndex(used, n + 1, bound)
  }

  /** Searching from any index below the least fresh one finds that one. */
  lemma {:induction false} FreshIndexFrom(used: set<string>, n: nat, bound: bool)
    requires forall m :: 0 <= m < n ==> VariableName(m, bound) in used
    ensures FreshIndex(used, 0, bound) == FreshIndex(used, n, bound)
    decreases n
  {
    if n > 0 {
      FreshIndexFrom(used, n - 1, bound);
    }
  }

  /** Free and bound variable names come from disjoint namespaces. */
  lemma NamespacesDisjoint(i: nat, j: nat)
    ensures FreeName(i) != BoundName(j)
  {
    assert FreeName(i)[0] != BoundName(j)[0];
  }
}

=== FILE: environment.dfy ===
/** Assumptions (scope frames), environments, contexts and the conversions between
    the engine's kinds of value. An environment lists its frames outermost first. */
module Environments {
  import opened Outcomes
  import opened Ast

  /** One scope-introducing frame. */
  datatype Assumption =
    | Assuming(sentence: Sentence)
    | Letting(variable: string)
    | Setting(variable: string, sentence: Sentence)

  type Environment = seq<Assumption>

  /** What a user can select or a law can conclude. */
  datatype Context =
    | Formula(sentence: Sentence)
    | TermContext(term: Term)
    | EnvironmentContext(env: Environment)
    | SentenceInEnv(sentence: Sentence, env: Environment)

  predicate CarriesEnvironment(c: Context) {
    c.EnvironmentContext? || c.SentenceInEnv?
  }

  /** The environment field of a context; formulas and term contexts keep the empty
      list a fresh context starts with. */
  function EnvOf(c: Context): Environment {
    if CarriesEnvironment(c) then c.env else []
  }

  /** allFormulas: no given carries an environment. */
  predicate AllFormulas(givens: seq<Context>) {
    forall i :: 0 <= i < |givens| ==> !CarriesEnvironment(givens[i])
  }

  // ----- canonical text of an environment -----

  datatype FrameKind = NoFrame | AssumingFrame | LettingFrame | SettingFrame

  function KindOf(a: Assumption): FrameKind {
    match a
    case Assuming(_) => AssumingFrame
    case Letting(_) => LettingFrame
    case Setting(_, _) => SettingFrame
  }

  /** The variables assumptionListToString keeps while it walks the frames. */
  datatype ListState = ListState(current: FrameKind, short: string, long: string, shortHalf: string, longHalf: string)

  const START := ListState(NoFrame, "", "", "", "")

  /** One step of assumptionListToString: consecutive "assuming" frames share one
      "assuming", consecutive "letting" frames share one "letting ... be arbitrary". */
  function Step(st: ListState, a: Assumption): ListState {
    match a
    case Assuming(s) =>
      var short := if st.current == AssumingFrame then st.long + ShortText(s)
                   else st.long + "assuming " + ShortText(s);
      ListState(AssumingFrame, short, short + ", ", st.shortHalf, st.longHalf)
    case Letting(v) =>
      var half := if st.current == LettingFrame then st.longHalf + Italic(v)
                  else st.long + "letting " + Italic(v);
      var short := half + " be arbitrary";
      ListState(LettingFrame, short, short + ", ", half, half + ", ")
    case Setting(v, s) =>
      var short := st.long + "setting " + Italic(v) + " s.t. " + ShortText(s);
      ListState(SettingFrame, short, short + ", ", st.shortHalf, st.longHalf)
  }

  function Walk(env: Environment): ListState {
    if |env| == 0 then START else Step(Walk(env[..|env| - 1]), env[|env| - 1])
  }

  /** The canonical string of an environment. */
  function EnvText(env: Environment): string {
    if |env| == 0 then "root environment" else Walk(env).short
  }

  /** assumptionListToString, the loop over the frames. */
  method AssumptionListToString(assumptions: Environment) returns (text: string)
    ensures text == EnvText(assumptions)
  {
    if |assumptions| == 0 {
      return "root environment";
    }
    var currentType := NoFrame;
    var shortText, longText, shortHalfText, longHalfText := "", "", "", "";
    var i := 0;
    while i < |assumptions|
      invariant 0 <= i <= |assumptions|
      invariant Walk(assumptions[..i]) == ListState(currentType, shortText, longText, shortHalfText, longHalfText)
    {
      var assumption := assumptions[i];
      match assumption {
        case Assuming(s) =>
          if currentType == AssumingFrame {
            shortText := longText + ShortText(s);
          } else {
            shortText := longText + "assuming " + ShortText(s);
          }
          longText := shortText + ", ";
        case Letting(v) =>
          if currentType == LettingFrame {
            shortHalfText := longHalfText + Italic(v);
          } else {
            shortHalfText := longText + "letting " + Italic(v);
          }
          longHalfText := shortHalfText + ", ";
          shortText := shortHalfText + " be arbitrary";
          longText := shortText + ", ";
        case Setting(v, s) =>
          shortText := longText + "setting " + Italic(v) + " s.t. " + ShortText(s);
          longText := shortText + ", ";
      }
      currentType := KindOf(assumption);
      assert assumptions[..i + 1][..i] == assumptions[..i];
      i := i + 1;
    }
    assert assumptions[..i] == assumptions;
    text := shortText;
  }

  /** Walking one more frame is one more step. */
  lemma WalkSnoc(env: Environment, a: Assumption)
    ensures Walk(env + [a]) == Step(Walk(env), a)
  {
    assert (env + [a])[..|env|] == env;
  }

  /** The separator and the keyword after it, written as one literal. */
  lemma Regroup(text: string, sep: string, keyword: string, joined: string)
    requires sep + keyword == joined
    ensures (text + sep) + keyword == text + joined
  {
  }

  /** After any frame, the long text is the short text followed by ", ", and after a
      "letting" frame the short text is the pending variable list + " be arbitrary". */
  lemma WalkShape(env: Environment)
    requires |env| > 0
    ensures Walk(env).long == Walk(env).short + ", "
    ensures Walk(env).current == KindOf(env[|env| - 1])
    ensures Walk(env).current == LettingFrame ==>
              Walk(env).short == Walk(env).shortHalf + " be arbitrary"
              && Walk(env).longHalf == Walk(env).shortHalf + ", "
  {
  }

  /** A further "assuming" frame after an "assuming" frame only adds ", " and its sentence. */
  lemma AssumingMerges(env: Environment, s: Sentence)
    requires |env| > 0 && env[|env| - 1].Assuming?
    ensures EnvText(env + [Assuming(s)]) == EnvText(env) + ", " + ShortText(s)
  {
    WalkSnoc(env, Assuming(s));
    WalkShape(env);
  }

  /** After any other frame, an "assuming" frame starts a new group. */
  lemma AssumingStartsGroup(env: Environment, s: Sentence)
    requires |env| > 0 && !env[|env| - 1].Assuming?
    ensures EnvText(env + [Assuming(s)]) == EnvText(env) + ", assuming " + ShortText(s)
  {
    var w := Walk(env);
    WalkSnoc(env, Assuming(s));
    WalkShape(env);
    Regroup(w.short, ", ", "assuming ", ", assuming ");
  }

  /** A further "letting" frame after a "letting" frame joins its variable list:
      "letting x be arbitrary" becomes "letting x, y be arbitrary". */
  lemma LettingMerges(env: Environment, v: string)
    requires |env| > 0 && env[|env| - 1].Letting?
    ensures EnvText(env) == Walk(env).shortHalf + " be arbitrary"
    ensures EnvText(env + [Letting(v)]) == Walk(env).shortHalf + ", " + Italic(v) + " be arbitrary"
  {
    WalkSnoc(env, Letting(v));
    WalkShape(env);
  }

  /** After any other frame, a "letting" frame starts a new group. */
  lemma LettingStartsGroup(env: Environment, v: string)
    requires |env| > 0 && !env[|env| - 1].Letting?
    ensures EnvText(env + [Letting(v)]) == EnvText(env) + ", letting " + Italic(v) + " be arbitrary"
  {
    var w := Walk(env);
    WalkSnoc(env, Letting(v));
    WalkShape(env);
    Regroup(w.short, ", ", "letting ", ", letting ");
  }

  /** A "setting" frame never merges with its neighbours. */
  lemma SettingStandsAlone(env: Environment, v: string, s: Sentence)
    requires |env| > 0
    ensures EnvText(env + [Setting(v, s)]) == EnvText(env) + ", setting " + Italic(v) + " s.t. " + ShortText(s)
  {
    var w := Walk(env);
    WalkSnoc(env, Setting(v, s));
    WalkShape(env);
    Regroup(w.short, ", ", "setting ", ", setting ");
  }

  // ----- context names -----

  /** Context.name(). */
  function ContextName(c: Context): string {
    match c
    case Formula(s) => "formula \"" + ShortText(s) + "\""
    case TermContext(t) => "term \"" + TermShort(t) + "\""
    case EnvironmentContext(env) => "[" + EnvText(env) + "]"
    case SentenceInEnv(s, env) =>
      if |env| == 0 then ShortText(s) else ShortText(s) + " [" + EnvText(env) + "]"
  }

  /** The victory check compares names: for one sentence, two environments give the
      same name exactly when both are the root environment or both print alike. */
  lemma SentenceNamesAgree(s: Sentence, e1: Environment, e2: Environment)
    ensures ContextName(SentenceInEnv(s, e1)) == ContextName(SentenceInEnv(s, e2))
      <==> (|e1| == 0 && |e2| == 0) || (|e1| > 0 && |e2| > 0 && EnvText(e1) == EnvText(e2))
  {
    var t := ShortText(s);
    var n1 := ContextName(SentenceInEnv(s, e1));
    var n2 := ContextName(SentenceInEnv(s, e2));
    if |e1| > 0 && |e2| > 0 && n1 == n2 {
      assert n1[|t| + 2..|n1| - 1] == EnvText(e1);
      assert n2[|t| + 2..|n2| - 1] == EnvText(e2);
    }
  }

  /** Formulas, terms and environments are named apart: each name opens with its
      own mark. */
  lemma KindsNamedApart(c: Context, d: Context)
    requires !c.SentenceInEnv? && !d.SentenceInEnv?
    requires c.Formula? != d.Formula? || c.TermContext? != d.TermContext?
    ensures ContextName(c) != ContextName(d)
  {
    assert ContextName(c)[0] != ContextName(d)[0];
  }

  /** The names joined by ", ". */
  function NamesText(list: seq<Context>): string {
    Join(seq(|list|, i requires 0 <= i < |list| => ContextName(list[i])))
  }

  /** Every name followed by ", ", as listToString builds it before the final cut. */
  function WithSeparators(list: seq<Context>): string {
    if |list| == 0 then "" else WithSeparators(list[..|list| - 1]) + ContextName(list[|list| - 1]) + ", "
  }

  lemma SeparatorsSnoc(list: seq<Context>, i: nat)
    requires i < |list|
    ensures WithSeparators(list[..i + 1]) == WithSeparators(list[..i]) + ContextName(list[i]) + ", "
  {
    assert list[..i + 1][..i] == list[..i];
  }

  lemma {:induction false} SeparatedIsJoined(list: seq<Context>)
    requires |list| > 0
    ensures WithSeparators(list) == NamesText(list) + ", "
    decreases |list|
  {
    var names := seq(|list|, i requires 0 <= i < |list| => ContextName(list[i]));
    if |list| == 1 {
      assert WithSeparators(list[..0]) == "";
    } else {
      var init := list[..|list| - 1];
      SeparatedIsJoined(init);
      var initNames := seq(|init|, i requires 0 <= i < |init| => ContextName(init[i]));
      assert initNames == names[..|list| - 1];
      JoinSnoc(names);
      var last := ContextName(list[|list| - 1]);
      assert NamesText(list) == NamesText(init) + ", " + last;
      assert WithSeparators(list) == WithSeparators(init) + last + ", ";
    }
  }

  lemma {:induction false} JoinSnoc(texts: seq<string>)
    requires |texts| >= 2
    ensures Join(texts) == Join(texts[..|texts| - 1]) + ", " + texts[|texts| - 1]
    decreases |texts|
  {
    if |texts| > 2 {
      JoinSnoc(texts[1..]);
      assert texts[1..][..|texts| - 2] == texts[..|texts| - 1][1..];
    } else {
      assert texts[..1] == [texts[0]];
    }
  }

  /** listToString: the contexts' names separated by ", ". */
  method ListToString(list: seq<Context>) returns (str: string)
    ensures str == NamesText(list)
  {
    if |list| == 0 {
      return "";
    }
    str := "";
    var i := 0;
    while i < |list|
      invariant 0 <= i <= |list|
      invariant str == WithSeparators(list[..i])
    {
      SeparatorsSnoc(list, i);
      str := str + ContextName(list[i]) + ", ";
      i := i + 1;
    }
    assert list[..i] == list;
    SeparatedIsJoined(list);
    ghost var joined := NamesText(list);
    assert str[..|joined|] == joined;
    str := str[..|str| - 2];
  }

  // ----- conversions -----

  /** The kinds of JavaScript value the engine converts between; `Str` is a plain
      string (the empty string marks an unbound placeholder). */
  datatype Item =
    | Str(s: string)
    | SentenceItem(sentence: Sentence)
    | TermItem(term: Term)
    | FreeItem(free: string)
    | BoundItem(bound: string)
    | AssumptionItem(assumption: Assumption)
    | ContextItem(context: Context)

  /** toTerm: a string becomes a primitive term, a variable the term for it. */
  function ToTerm(obj: Item): Outcome<Term> {
    match obj
    case Str(s) => Ok(PrimitiveTerm(s))
    case TermItem(t) => Ok(t)
    case FreeItem(n) => Ok(FreeVar(n))
    case BoundItem(n) => Ok(BoundVar(n))
    case _ => Thrown(TypeMismatch)
  }

  /** toAssumption: a sentence is assumed, a free variable is let be arbitrary. */
  function ToAssumption(obj: Item): Outcome<Assumption> {
    match obj
    case AssumptionItem(a) => Ok(a)
    case SentenceItem(s) => Ok(Assuming(s))
    case FreeItem(n) => Ok(Letting(n))
    case _ => Thrown(TypeMismatch)
  }

  /** toContext, without the branches that read the page's boxes. */
  function ToContext(obj: Item): Outcome<Context> {
    match obj
    case SentenceItem(s) => Ok(SentenceInEnv(s, []))
    case TermItem(t) => Ok(TermContext(t))
    case ContextItem(c) => Ok(c)
    case FreeItem(n) => Ok(EnvironmentContext([Letting(n)]))
    case BoundItem(n) => Ok(TermContext(BoundVar(n)))
    case _ => Thrown(TypeMismatch)
  }

  /** The three conversions agree: a term, or a bound variable, becomes the term
      context of its term; a free variable becomes the environment whose one frame
      is the variable's assumption; a sentence becomes that sentence in the root
      environment, while as an assumption it is assumed. */
  lemma ConversionsAgree(obj: Item)
    ensures obj.TermItem? || obj.BoundItem? ==> ToContext(obj) == Ok(TermContext(ToTerm(obj).value))
    ensures obj.FreeItem? ==> ToContext(obj) == Ok(EnvironmentContext([ToAssumption(obj).value]))
    ensures obj.SentenceItem? ==>
      ToContext(obj) == Ok(SentenceInEnv(obj.sentence, [])) && ToAssumption(obj) == Ok(Assuming(obj.sentence))
    ensures ToContext(obj).Thrown? <==> obj.Str? || obj.AssumptionItem?
    ensures ToTerm(obj).Thrown? <==> !(obj.Str? || obj.TermItem? || obj.FreeItem? || obj.BoundItem?)
  {
  }

  /** assuming(context, assumption): a copy of the context's sentence in its
      environment with the new frame put first (outermost); the original value is
      untouched. A term or environment context has no sentence to carry over. */
  function Assume(c: Context, a: Assumption): (r: Outcome<Context>)
    ensures r.Ok? <==> c.Formula? || c.SentenceInEnv?
    ensures r.Ok? ==> r.value == SentenceInEnv(c.sentence, [a] + EnvOf(c))
    ensures r.Ok? ==> |EnvOf(r.value)| == |EnvOf(c)| + 1 && EnvOf(r.value)[1..] == EnvOf(c)
  {
    match c
    case Formula(s) => assert [a] + [] == [a]; Ok(SentenceInEnv(s, [a]))
    case SentenceInEnv(s, env) => Ok(SentenceInEnv(s, [a] + env))
    case _ => Thrown(TypeMismatch)
  }
}

=== FILE: legality.dfy ===
/** isLegalSentence and isLegal: the well-formedness check every conclusion passes
    before a deduction is accepted. A legal context introduces each free variable
    once, uses in each sentence only the free variables introduced so far, binds
    every bound variable it uses and never re-binds a name inside its own scope. */
module Legality {
  import opened Outcomes
  import opened Ast
  import opened Environments
  import opened Substitution
  import Primitives

  // ===== the check, as the source runs it =====

  /** The name of a term's first argument (`argList[0].name`): a variable term gives
      the variable's name; an operator term gives its first argument, a term, which
      has no name (None); a primitive term or a nullary operator has no first
      argument and reading its name fails. */
  function FirstArgName(t: Term): Outcome<Option<string>> {
    match t
    case FreeVar(n) => Ok(Some(n))
    case BoundVar(n) => Ok(Some(n))
    case PrimitiveTerm(_) => Thrown(TypeMismatch)
    case OperatorEval(_, args) => if |args| == 0 then Thrown(TypeMismatch) else Ok(None)
  }

  /** The name under which a quantifier binds its variable: the first argument of the
      slot converted to a term. */
  function QuantifiedName(bd: Binder): Outcome<Option<string>> {
    match bd
    case BinderVar(n) => Ok(Some(n))
    case BinderTerm(t) => FirstArgName(t)
  }

  /** isLegalSentence on a term. `free` is None for "ALL". */
  function LegalTerm(t: Term, free: Option<seq<string>>, bound: seq<Option<string>>, allowUnbound: bool): bool {
    match t
    case FreeVar(n) => free.None? || n in free.value
    case BoundVar(n) => allowUnbound || Some(n) in bound
    case PrimitiveTerm(_) => true
    case OperatorEval(_, args) => forall i :: 0 <= i < |args| ==> LegalTerm(args[i], free, bound, allowUnbound)
  }

  /** isLegalSentence: the children are checked in order and the first illegal one
      decides; a quantifier first rejects a name already bound around it. */
  function LegalSentence(s: Sentence, free: Option<seq<string>>, bound: seq<Option<string>>, allowUnbound: bool): Outcome<bool> {
    match s
    case Atomic(_) => Ok(true)
    case True => Ok(true)
    case False => Ok(true)
    case PredicateApp(_, args) => Ok(forall i :: 0 <= i < |args| ==> LegalTerm(args[i], free, bound, allowUnbound))
    case Not(a) => LegalSentence(a, free, bound, allowUnbound)
    case Binary(_, l, r) =>
      var ok :- LegalSentence(l, free, bound, allowUnbound);
      if !ok then Ok(false) else LegalSentence(r, free, bound, allowUnbound)
    case ForAll(body, bd) =>
      var name :- QuantifiedName(bd);
      if name in bound then Ok(false)
      else
        var ok :- LegalSentence(body, free, bound + [name], allowUnbound);
        if !ok then Ok(false) else Ok(LegalBinder(bd, free, bound + [name], allowUnbound))
    case ThereExists(body, bd) =>
      var name :- QuantifiedName(bd);
      if name in bound then Ok(false)
      else
        var ok :- LegalSentence(body, free, bound + [name], allowUnbound);
        if !ok then Ok(false) else Ok(LegalBinder(bd, free, bound + [name], allowUnbound))
  }

  /** The quantifier's own slot, checked as its last child. */
  function LegalBinder(bd: Binder, free: Option<seq<string>>, bound: seq<Option<string>>, allowUnbound: bool): bool {
    match bd
    case BinderVar(n) => allowUnbound || Some(n) in bound
    case BinderTerm(t) => LegalTerm(t, free, bound, allowUnbound)
  }

  /** The variables the "letting" and "setting" frames introduce, in order. */
  function Introduced(env: Environment): seq<string>
    decreases |env|
  {
    if |env| == 0 then [] else IntroducedBy(env[0]) + Introduced(env[1..])
  }

  function IntroducedBy(a: Assumption): seq<string> {
    if a.Letting? || a.Setting? then [a.variable] else []
  }

  /** The loop of isLegal over the frames, from the frame at hand on; `free` holds
      the variables introduced before it. */
  function LegalFrames(env: Environment, free: seq<string>): Outcome<bool>
    decreases |env|
  {
    if |env| == 0 then Ok(true)
    else
      var a := env[0];
      if (a.Letting? || a.Setting?) && a.variable in free then Ok(false)
      else
        var free' := free + IntroducedBy(a);
        if a.Letting? then LegalFrames(env[1..], free')
        else
          var ok :- LegalSentence(a.sentence, Some(free'), [], false);
          if !ok then Ok(false) else LegalFrames(env[1..], free')
  }

  /** isLegal. Terms are not checked; a formula may use any free variable and leave
      bound variables unquantified; an environment, or a sentence in one, is checked
      frame by frame and then its sentence against every variable introduced. */
  function Legal(c: Context): Outcome<bool> {
    match c
    case TermContext(_) => Ok(true)
    case Formula(s) => LegalSentence(s, None, [], true)
    case EnvironmentContext(env) => LegalFrames(env, [])
    case SentenceInEnv(s, env) =>
      var ok :- LegalFrames(env, []);
      if !ok then Ok(false) else LegalSentence(s, Some(Introduced(env)), [], false)
  }

  /** isLegal as the source runs it: one pass over the frames, growing the list of
      available free variables. */
  method IsLegal(c: Context) returns (r: Outcome<bool>)
    ensures r == Legal(c)
  {
    if c.TermContext? {
      return Ok(true);
    }
    if c.Formula? {
      return LegalSentence(c.sentence, None, [], true);
    }
    var env := c.env;
    var freeVariables: seq<string> := [];
    var i := 0;
    while i < |env|
      invariant 0 <= i <= |env|
      invariant freeVariables == Introduced(env[..i])
      invariant LegalFrames(env, []) == LegalFrames(env[i..], freeVariables)
    {
      var assumption := env[i];
      ghost var before := freeVariables;
      assert env[i..][0] == assumption && env[i..][1..] == env[i + 1..];
      IntroducedSnoc(env[..i + 1]);
      assert env[..i + 1][..i] == env[..i];
      if assumption.Letting? || assumption.Setting? {
        if assumption.variable in freeVariables {
          return Ok(false);
        }
        freeVariables := freeVariables + [assumption.variable];
      }
      assert freeVariables == before + IntroducedBy(assumption);
      if assumption.Assuming? || assumption.Setting? {
        var ok := LegalSentence(assumption.sentence, Some(freeVariables), [], false);
        if ok.Thrown? {
          return Thrown(ok.fault);
        }
        if !ok.value {
          return Ok(false);
        }
      }
      i := i + 1;
    }
    assert env[..i] == env;
    if c.SentenceInEnv? {
      return LegalSentence(c.sentence, Some(freeVariables), [], false);
    }
    return Ok(true);
  }

  lemma {:induction false} IntroducedSnoc(env: Environment)
    requires |env| > 0
    ensures Introduced(env) == Introduced(env[..|env| - 1]) + IntroducedBy(env[|env| - 1])
    decreases |env|
  {
    if |env| > 1 {
      IntroducedSnoc(env[1..]);
      assert env[1..][..|env| - 2] == env[..|env| - 1][1..];
    } else {
      assert env[..0] == [];
    }
  }

  // ===== what legality means =====

  function NameSet(bd: Binder): set<string> {
    match QuantifiedName(bd)
    case Ok(Some(n)) => {n}
    case _ => {}
  }

  function BinderLeaves(bd: Binder): set<string> {
    if bd.BinderTerm? then BoundLeavesTerm(bd.term) else {}
  }

  /** The bound-variable leaves not captured by a quantifier around them. */
  function OpenBoundLeaves(s: Sentence): set<string> {
    match s
    case PredicateApp(_, args) => set i, n | 0 <= i < |args| && n in BoundLeavesTerm(args[i]) :: n
    case Binary(_, l, r) => OpenBoundLeaves(l) + OpenBoundLeaves(r)
    case Not(a) => OpenBoundLeaves(a)
    case ForAll(body, bd) => (OpenBoundLeaves(body) + BinderLeaves(bd)) - NameSet(bd)
    case ThereExists(body, bd) => (OpenBoundLeaves(body) + BinderLeaves(bd)) - NameSet(bd)
    case _ => {}
  }

  /** Every quantifier names its variable, and none binds a name already bound by a
      quantifier around it (or listed in `bound`). */
  predicate DistinctQuantifiers(s: Sentence, bound: seq<Option<string>>) {
    match s
    case Binary(_, l, r) => DistinctQuantifiers(l, bound) && DistinctQuantifiers(r, bound)
    case Not(a) => DistinctQuantifiers(a, bound)
    case ForAll(body, bd) =>
      QuantifiedName(bd).Ok? && QuantifiedName(bd).value !in bound
      && DistinctQuantifiers(body, bound + [QuantifiedName(bd).value])
    case ThereExists(body, bd) =>
      QuantifiedName(bd).Ok? && QuantifiedName(bd).value !in bound
      && DistinctQuantifiers(body, bound + [QuantifiedName(bd).value])
    case _ => true
  }

  /** A legal sentence: distinct quantifiers, free variables drawn from `free`, and
      (unless unbound ones are allowed) every bound leaf captured by a quantifier or
      listed in `bound`. */
  predicate Admissible(s: Sentence, free: Option<seq<string>>, bound: seq<Option<string>>, allowUnbound: bool) {
    && DistinctQuantifiers(s, bound)
    && (free.Some? ==> forall n :: n in FreeVars(s) ==> n in free.value)
    && (!allowUnbound ==> forall n :: n in OpenBoundLeaves(s) ==> Some(n) in bound)
  }

  lemma {:induction false} LegalTermIff(t: Term, free: Option<seq<string>>, bound: seq<Option<string>>, allowUnbound: bool)
    ensures LegalTerm(t, free, bound, allowUnbound) <==>
      && (free.Some? ==> forall n :: n in FreeVarsTerm(t) ==> n in free.value)
      && (!allowUnbound ==> forall n :: n in BoundLeavesTerm(t) ==> Some(n) in bound)
  {
    match t
    case OperatorEval(op, args) =>
      forall i | 0 <= i < |args|
        ensures LegalTerm(args[i], free, bound, allowUnbound) <==>
          && (free.Some? ==> forall n :: n in FreeVarsTerm(args[i]) ==> n in free.value)
          && (!allowUnbound ==> forall n :: n in BoundLeavesTerm(args[i]) ==> Some(n) in bound)
      {
        LegalTermIff(args[i], free, bound, allowUnbound);
      }
      if !LegalTerm(t, free, bound, allowUnbound) {
        var i :| 0 <= i < |args| && !LegalTerm(args[i], free, bound, allowUnbound);
        if free.Some? && exists n :: n in FreeVarsTerm(args[i]) && n !in free.value {
          var n :| n in FreeVarsTerm(args[i]) && n !in free.value;
          assert n in FreeVarsTerm(t);
        } else {
          var n :| n in BoundLeavesTerm(args[i]) && Some(n) !in bound;
          assert n in BoundLeavesTerm(t);
        }
      }
    case _ =>
  }

  /** The check accepts a sentence exactly when it is admissible: it neither fails
      nor rejects a sentence with distinct, named quantifiers whose variables are all
      in scope. */
  lemma {:induction false} LegalSentenceIff(s: Sentence, free: Option<seq<string>>, bound: seq<Option<string>>, allowUnbound: bool)
    ensures LegalSentence(s, free, bound, allowUnbound) == Ok(true) <==> Admissible(s, free, bound, allowUnbound)
    decreases s, 1
  {
    match s
    case PredicateApp(p, args) =>
      // the argument list is checked exactly as an operator term's
      var t := OperatorEval(Operator("", 0, false), args);
      LegalTermIff(t, free, bound, allowUnbound);
      assert FreeVars(s) == FreeVarsTerm(t);
      assert OpenBoundLeaves(s) == BoundLeavesTerm(t);
    case Not(a) => LegalSentenceIff(a, free, bound, allowUnbound);
    case Binary(k, l, r) =>
      LegalSentenceIff(l, free, bound, allowUnbound);
      LegalSentenceIff(r, free, bound, allowUnbound);
    case ForAll(body, bd) => QuantifierIff(s, free, bound, allowUnbound);
    case ThereExists(body, bd) => QuantifierIff(s, free, bound, allowUnbound);
    case _ =>
  }

  lemma {:induction false} QuantifierIff(s: Sentence, free: Option<seq<string>>, bound: seq<Option<string>>, allowUnbound: bool)
    requires s.ForAll? || s.ThereExists?
    ensures LegalSentence(s, free, bound, allowUnbound) == Ok(true) <==> Admissible(s, free, bound, allowUnbound)
    decreases s, 0
  {
    var body, bd := s.body, s.binder;
    if QuantifiedName(bd).Ok? && QuantifiedName(bd).value !in bound {
      var name := QuantifiedName(bd).value;
      var bound' := bound + [name];
      LegalSentenceIff(body, free, bound', allowUnbound);
      if bd.BinderTerm? {
        LegalTermIff(bd.term, free, bound', allowUnbound);
      }
      assert forall n :: Some(n) in bound' <==> Some(n) in bound || n in NameSet(bd);
    }
  }

  // ----- frames -----

  /** A legal list of frames: no variable introduced twice, and each sentence uses
      only the variables introduced up to and including its own frame and binds
      every bound variable it uses. */
  predicate FramesAdmissible(env: Environment, free: seq<string>) {
    && Primitives.NoRepeats(free + Introduced(env))
    && forall i :: 0 <= i < |env| && !env[i].Letting? ==>
         Admissible(env[i].sentence, Some(free + Introduced(env[..i + 1])), [], false)
  }

  lemma IntroducedCons(a: Assumption, env: Environment)
    ensures Introduced([a] + env) == IntroducedBy(a) + Introduced(env)
  {
    assert ([a] + env)[1..] == env;
  }

  lemma {:induction false} LegalFramesIff(env: Environment, free: seq<string>)
    requires Primitives.NoRepeats(free)
    ensures LegalFrames(env, free) == Ok(true) <==> FramesAdmissible(env, free)
    decreases |env|
  {
    if |env| == 0 {
      assert free + [] == free;
    } else {
      var a, rest := env[0], env[1..];
      assert env == [a] + rest;
      IntroducedCons(a, rest);
      var free' := free + IntroducedBy(a);
      assert free + Introduced(env) == free' + Introduced(rest);
      if (a.Letting? || a.Setting?) && a.variable in free {
        var j :| 0 <= j < |free| && free[j] == a.variable;
        assert (free + Introduced(env))[j] == (free + Introduced(env))[|free|];
      } else {
        assert Primitives.NoRepeats(free');
        LegalFramesIff(rest, free');
        if !a.Letting? {
          LegalSentenceIff(a.sentence, Some(free'), [], false);
        }
        assert env[..1] == [a];
        IntroducedCons(a, []);
        assert free + Introduced(env[..1]) == free';
        forall i | 1 <= i < |env|
          ensures env[i] == rest[i - 1]
          ensures free + Introduced(env[..i + 1]) == free' + Introduced(rest[..i])
        {
          assert env[..i + 1] == [a] + rest[..i];
          IntroducedCons(a, rest[..i]);
        }
        if FramesAdmissible(env, free) {
          forall i | 0 <= i < |rest| && !rest[i].Letting?
            ensures Admissible(rest[i].sentence, Some(free' + Introduced(rest[..i + 1])), [], false)
          {
            assert env[i + 1] == rest[i];
          }
          assert Primitives.NoRepeats(free' + Introduced(rest));
        }
      }
    }
  }

  /** A legal context, as isLegal means it. */
  predicate ContextAdmissible(c: Context) {
    match c
    case TermContext(_) => true
    case Formula(s) => Admissible(s, None, [], true)
    case EnvironmentContext(env) => FramesAdmissible(env, [])
    case SentenceInEnv(s, env) => FramesAdmissible(env, []) && Admissible(s, Some(Introduced(env)), [], false)
  }

  /** isLegal accepts a context exactly when it is admissible: a formula needs only
      distinct quantifiers; an environment must introduce each free variable once,
      with each sentence confined to the variables introduced so far and binding
      every bound variable it uses; the sentence of a sentence-in-environment is
      confined to all the variables the environment introduces. */
  lemma LegalIff(c: Context)
    ensures Legal(c) == Ok(true) <==> ContextAdmissible(c)
  {
    match c
    case TermContext(_) =>
    case Formula(s) => LegalSentenceIff(s, None, [], true);
    case EnvironmentContext(env) =>
      assert Primitives.NoRepeats([]);
      LegalFramesIff(env, []);
    case SentenceInEnv(s, env) =>
      assert Primitives.NoRepeats([]);
      LegalFramesIff(env, []);
      LegalSentenceIff(s, Some(Introduced(env)), [], false);
      assert [] + Introduced(env) == Introduced(env);
  }

  /** A sentence in an environment that introduces no variable and assumes nothing
      uses no free variable and no unbound bound variable. */
  lemma RootSentenceClosed(s: Sentence)
    requires Legal(SentenceInEnv(s, [])) == Ok(true)
    ensures FreeVars(s) == {} && OpenBoundLeaves(s) == {}
  {
    LegalIff(SentenceInEnv(s, []));
  }
}

=== FILE: matcher.dfy ===
/** matchWithGivens and the matchWith* helpers: match the selected contexts
    (the justification) against a law's givens, collect the placeholder bindings,
    build the conclusion and check that it is legal.

    The source's `output` object, which the helpers update in place, is threaded
    through them here as a value: each helper takes the object as it was and
    returns it as the helper leaves it. A helper whose first act is to return when
    the match has already failed returns its argument unchanged. */
module Matcher {
  import opened Outcomes
  import opened Ast
  import opened Environments
  import opened Substitution
  import opened Legality
  import opened Primitives

  /** The three laws matchWithGivens recognises by identity, and all the others. */
  datatype LawKind = Ordinary | UniversalIntroduction | UniversalIntroduction2 | UniversalSpecification

  /** What matching reads from a law. */
  datatype Rule = Rule(givens: seq<Context>, conclusion: Context, kind: LawKind)

  /** Every placeholder of the law starts unbound. */
  function Seed(primitives: seq<string>): Values {
    map n | n in primitives :: UNSET
  }

  function Initial(primitives: seq<string>): Output {
    Output(true, [], Seed(primitives), None)
  }

  function Fail(o: Output): Output {
    o.(matches := false)
  }

  /** The short text of a bound value, if it has one (a plain string has none). */
  function ItemText(item: Item): Option<string> {
    match item
    case SentenceItem(s) => Some(ShortText(s))
    case TermItem(t) => Some(TermShort(t))
    case FreeItem(n) => Some(Italic(n))
    case BoundItem(n) => Some(Italic(n))
    case _ => None
  }

  /** A later stage of the same match: the same placeholders, the same ambient
      environment and conclusion, and every binding already made kept. */
  predicate Extends(o: Output, r: Output) {
    r.values.Keys == o.values.Keys && r.env == o.env && r.conclusion == o.conclusion
    && forall n :: n in o.values && o.values[n] != UNSET ==> r.values[n] == o.values[n]
  }

  lemma ExtendsTransitive(a: Output, b: Output, c: Output)
    requires Extends(a, b) && Extends(b, c)
    ensures Extends(a, c)
  {
  }

  /** First bind wins: a placeholder already bound to this value keeps it, an unbound
      one takes it, and anything else (another value, or a name that is not a
      placeholder of the law) fails the match. */
  function Bind(n: string, v: Item, o: Output): (r: Output)
    requires v != UNSET
    ensures Extends(o, r)
    ensures r.env == o.env && r.conclusion == o.conclusion && r.values.Keys == o.values.Keys
    ensures r.matches ==> n in r.values && r.values[n] == v
    ensures r.matches <==> o.matches && n in o.values && (o.values[n] == v || o.values[n] == UNSET)
  {
    if n in o.values && o.values[n] == v then o
    else if n in o.values && o.values[n] == UNSET then o.(values := o.values[n := v])
    else Fail(o)
  }

  // ===== matching, as the source runs it =====

  /** matchWithGivenSentence. An atomic template is a placeholder; a predicate
      template never matches; any other template needs a sentence node of the same
      type and subtype, and its children are matched in order. */
  function MatchSentence(s: Sentence, t: Sentence, o: Output): Outcome<Output>
    decreases t
  {
    if !o.matches then Ok(o)
    else match t
      case Atomic(n) =>
        if n !in o.values then Thrown(TypeMismatch)
        else if ItemText(o.values[n]) == Some(ShortText(s)) then Ok(o)
        else if o.values[n] == UNSET then Ok(o.(values := o.values[n := SentenceItem(s)]))
        else Ok(Fail(o))
      case PredicateApp(_, _) => Ok(Fail(o))
      case Binary(k, l, r) =>
        if !(s.Binary? && s.kind == k) then Ok(Fail(o))
        else
          var o1 :- MatchSentence(s.left, l, o);
          MatchSentence(s.right, r, o1)
      case Not(a) => if !s.Not? then Ok(Fail(o)) else MatchSentence(s.arg, a, o)
      case True => if s.True? then Ok(o) else Ok(Fail(o))
      case False => if s.False? then Ok(o) else Ok(Fail(o))
      case ForAll(body, bd) =>
        if !s.ForAll? then Ok(Fail(o))
        else
          var o1 :- MatchSentence(s.body, body, o);
          MatchBinder(s.binder, bd, o1)
      case ThereExists(body, bd) =>
        if !s.ThereExists? then Ok(Fail(o))
        else
          var o1 :- MatchSentence(s.body, body, o);
          MatchBinder(s.binder, bd, o1)
  }

  /** The quantifier slots, matched as the sentence matcher matches any child. A
      variable's subtype is its name, so equal variables pass the subtype test and
      the matcher then reads the argument list a variable does not have. */
  function MatchBinder(sb: Binder, tb: Binder, o: Output): Outcome<Output> {
    if !o.matches then Ok(o)
    else match tb
      case BinderVar(n) => if sb.BinderVar? && sb.name == n then Thrown(TypeMismatch) else Ok(Fail(o))
      case BinderTerm(tt) => if sb.BinderTerm? then MatchTermNode(sb.term, tt, o) else Ok(Fail(o))
  }

  predicate SameSubtype(a: Term, b: Term) {
    (a.FreeVar? && b.FreeVar?) || (a.BoundVar? && b.BoundVar?)
    || (a.PrimitiveTerm? && b.PrimitiveTerm?) || (a.OperatorEval? && b.OperatorEval?)
  }

  /** A term met inside a quantifier slot. An operator template is not compared with
      the operator it meets; only the arguments are. */
  function MatchTermNode(st: Term, tt: Term, o: Output): Outcome<Output>
    decreases tt, 1, 0
  {
    if !o.matches then Ok(o)
    else if !SameSubtype(st, tt) then Ok(Fail(o))
    else match tt
      case FreeVar(n) => if st.free == n then Thrown(TypeMismatch) else Ok(Fail(o))
      case BoundVar(n) => if st.bound == n then Thrown(TypeMismatch) else Ok(Fail(o))
      case PrimitiveTerm(_) => Ok(o)
      case OperatorEval(_, _) => MatchTermArgs(st.args, tt, 0, o)
  }

  /** The template operator's arguments from the i-th on; a missing counterpart is
      read as undefined, which fails. */
  function MatchTermArgs(sargs: seq<Term>, tt: Term, i: nat, o: Output): Outcome<Output>
    requires tt.OperatorEval? && i <= |tt.args|
    decreases tt, 0, |tt.args| - i
  {
    if i == |tt.args| then Ok(o)
    else if !o.matches then Ok(o)
    else if i >= |sargs| then Thrown(MissingElement)
    else
      var o1 :- MatchTermNode(sargs[i], tt.args[i], o);
      MatchTermArgs(sargs, tt, i + 1, o1)
  }

  /** matchWithGivenTerm: a variable template binds a variable of the same kind; any
      other template is accepted as it is. */
  function MatchTerm(term: Term, t: Term, o: Output): Output {
    if !o.matches then o
    else match t
      case FreeVar(n) => if !term.FreeVar? then Fail(o) else Bind(n, FreeItem(term.free), o)
      case BoundVar(n) => if !term.BoundVar? then Fail(o) else Bind(n, BoundItem(term.bound), o)
      case _ => o
  }

  /** matchWithGivenAssumption: the frame kinds must agree; the sentence of an
      "assuming" or "setting" frame is matched, and the variable of a "letting" or
      "setting" frame is bound (also after the sentence has failed). */
  function MatchAssumption(a: Assumption, t: Assumption, o: Output): Outcome<Output> {
    if !o.matches then Ok(o)
    else if KindOf(a) != KindOf(t) then Ok(Fail(o))
    else
      var o1 :- if a.Letting? then Ok(o) else MatchSentence(a.sentence, t.sentence, o);
      Ok(if a.Assuming? then o1 else Bind(t.variable, FreeItem(a.variable), o1))
  }

  /** The template's frames from the i-th on, against the context's frames after
      the ambient prefix. */
  function MatchFrames(cenv: Environment, tenv: Environment, i: nat, o: Output): Outcome<Output>
    decreases |tenv| - i
  {
    if i >= |tenv| then Ok(o)
    else if !o.matches then Ok(o)
    else if i + |o.env| >= |cenv| then Thrown(MissingElement)
    else
      var o1 :- MatchAssumption(cenv[i + |o.env|], tenv[i], o);
      MatchFrames(cenv, tenv, i + 1, o1)
  }

  predicate SameKind(c: Context, t: Context) {
    (c.Formula? && t.Formula?) || (c.TermContext? && t.TermContext?)
    || (c.EnvironmentContext? && t.EnvironmentContext?) || (c.SentenceInEnv? && t.SentenceInEnv?)
  }

  /** matchWithGiven: the context kinds must agree; then the frames, the sentence or
      the term. */
  function MatchGiven(c: Context, t: Context, o: Output): Outcome<Output> {
    if !o.matches then Ok(o)
    else if !SameKind(c, t) then Ok(Fail(o))
    else
      var o1 :- if CarriesEnvironment(t) then MatchFrames(EnvOf(c), t.env, 0, o) else Ok(o);
      if t.Formula? || t.SentenceInEnv? then MatchSentence(c.sentence, t.sentence, o1)
      else if t.TermContext? then Ok(MatchTerm(c.term, t.term, o1))
      else Ok(o1)
  }

  /** The givens from the i-th on, stopping at the first failure. */
  function MatchGivensFrom(args: seq<Context>, givens: seq<Context>, i: nat, o: Output): Outcome<Output>
    requires |args| == |givens| && i <= |givens|
    decreases |givens| - i
  {
    if i == |givens| then Ok(o)
    else
      var o1 :- MatchGiven(args[i], givens[i], o);
      if !o1.matches then Ok(o1) else MatchGivensFrom(args, givens, i + 1, o1)
  }

  // ----- the ambient environment -----

  /** The frames of a justification above those its template accounts for. */
  function Candidate(c: Context, t: Context): Environment
    requires |EnvOf(t)| <= |EnvOf(c)|
  {
    EnvOf(c)[..|EnvOf(c)| - |EnvOf(t)|]
  }

  /** The prefix loop of matchWithGivens from the i-th given on: the first
      environment-carrying given proposes its candidate, every later one must agree
      with it by canonical text. None when a justification has fewer frames than its
      template or when two candidates disagree. */
  function InferPrefix(args: seq<Context>, givens: seq<Context>, i: nat, proposed: Option<Environment>): Option<Environment>
    requires |args| == |givens| && i <= |givens|
    decreases |givens| - i
  {
    if i == |givens| then Some(if proposed.Some? then proposed.value else [])
    else if !CarriesEnvironment(givens[i]) then InferPrefix(args, givens, i + 1, proposed)
    else if |EnvOf(args[i])| < |EnvOf(givens[i])| then None
    else
      var candidate := Candidate(args[i], givens[i]);
      if proposed.None? then InferPrefix(args, givens, i + 1, Some(candidate))
      else if EnvText(proposed.value) != EnvText(candidate) then None
      else InferPrefix(args, givens, i + 1, proposed)
  }

  // ----- the two quantifier laws -----

  /** The bound-variable names met in a sentence, as the walker lists them. */
  function BoundNamesIn(s: Sentence): set<string> {
    set n | n in SentenceNames(s, BOUND_ONLY)
  }

  /** The bound variable the second law of universal introduction picks: the first
      of X, Y, Z, X', ... that the statement does not already use. */
  function NextBoundVariable(s: Sentence): string {
    BoundName(FreshIndex(BoundNamesIn(s), 0, true))
  }

  /** The first free slot of the search is the one the search from 0 finds. */
  lemma FreshBoundAt(used: set<string>, n: nat)
    requires forall m :: 0 <= m < n ==> VariableName(m, true) in used
    requires BoundName(n) !in used
    ensures BoundName(FreshIndex(used, 0, true)) == BoundName(n)
  {
    assert FreshIndex(used, n, true) == n;
    FreshIndexFrom(used, n, true);
  }

  /** The name-choosing loop of matchUniversalIntroduction: X, Y, Z, X', ... until
      a name the statement does not use. */
  method ChooseBoundVariable(statement: Sentence) returns (name: string)
    ensures name == NextBoundVariable(statement)
  {
    var boundVars := PushPrimitivesFromSentence([], statement, BOUND_ONLY);
    AddNewSpec([], SentenceNames(statement, BOUND_ONLY));
    name := FirstUnusedBound(boundVars, BoundNamesIn(statement));
  }

  /** The do-while of the name search, over the list of names already taken. */
  method FirstUnusedBound(taken: seq<string>, ghost used: set<string>) returns (name: string)
    requires forall n :: n in taken <==> n in used
    ensures name == BoundName(FreshIndex(used, 0, true))
  {
    var num := 0;
    while true
      invariant forall m :: 0 <= m < num ==> VariableName(m, true) in used
      decreases |used| - num
    {
      NamesCounted(num, used, true);
      name := BoundVariableName(num);
      if name !in taken {
        FreshBoundAt(used, num);
        return;
      }
      assert VariableName(num, true) in used;
      num := num + 1;
    }
  }

  /** forAll(freeToBound(statement, x, b), b) in the ambient environment. */
  function Introduce(statement: Sentence, x: string, b: string, o: Output): Outcome<Output> {
    var body :- FreeToBound(statement, x, b);
    Ok(o.(conclusion := Some(SentenceInEnv(ForAll(body, BinderVar(b)), o.env))))
  }

  /** matchUniversalIntroduction: the first justification must be a sentence whose
      frame just below the ambient prefix lets x be arbitrary. The first law takes the
      bound variable from a term context holding one, the second (given an
      environment) picks the next unused bound variable. */
  function MatchUniversalIntroduction(args: seq<Context>, o: Output, second: bool): Outcome<Output> {
    if !o.matches then Ok(o)
    else if |args| == 0 then Thrown(MissingElement)
    else if !args[0].SentenceInEnv? then Ok(Fail(o))
    else if |args[0].env| <= |o.env| then Thrown(MissingElement)
    else if !args[0].env[|o.env|].Letting? then Ok(Fail(o))
    else if |args| < 2 then Thrown(MissingElement)
    else
      var x := args[0].env[|o.env|].variable;
      var statement := args[0].sentence;
      if !second then
        if !args[1].TermContext? || !args[1].term.BoundVar? then Ok(Fail(o))
        else Introduce(statement, x, args[1].term.bound, o)
      else if !args[1].EnvironmentContext? then Ok(Fail(o))
      else Introduce(statement, x, NextBoundVariable(statement), o)
  }

  /** The bound variable boundToTerm looks for: the first argument of the slot
      converted to a term, which is that bound variable only when the slot holds
      one (directly or as a term). */
  function SpecifiedName(bd: Binder): Option<string> {
    match bd
    case BinderVar(n) => Some(n)
    case BinderTerm(BoundVar(n)) => Some(n)
    case _ => None
  }

  /** matchUniversalSpecification: a FOR ALL sentence and a term context give the
      body with the quantified variable replaced by the term, in the ambient
      environment. */
  function MatchUniversalSpecification(args: seq<Context>, o: Output): Outcome<Output> {
    if !o.matches then Ok(o)
    else if |args| == 0 then Thrown(MissingElement)
    else if !args[0].SentenceInEnv? || !args[0].sentence.ForAll? then Ok(Fail(o))
    else if |args| < 2 then Thrown(MissingElement)
    else if !args[1].TermContext? then Ok(Fail(o))
    else
      var s :- BoundToTerm(args[0].sentence.body, SpecifiedName(args[0].sentence.binder), args[1].term);
      Ok(o.(conclusion := Some(SentenceInEnv(s, o.env))))
  }

  // ----- the whole match -----

  /** The law-specific part: the quantifier laws have their own matchers; any other
      law matches its givens one by one and instantiates its conclusion. */
  function MatchLaw(args: seq<Context>, rule: Rule, o: Output): Outcome<Output>
    requires |args| == |rule.givens|
  {
    match rule.kind
    case UniversalIntroduction => MatchUniversalIntroduction(args, o, false)
    case UniversalIntroduction2 => MatchUniversalIntroduction(args, o, true)
    case UniversalSpecification => MatchUniversalSpecification(args, o)
    case Ordinary =>
      var o1 :- MatchGivensFrom(args, rule.givens, 0, o);
      if !o1.matches then Ok(o1)
      else
        var c :- Subs(rule.conclusion, o1);
        Ok(o1.(conclusion := Some(c)))
  }

  /** matchWithGivens: the arity check, the ambient environment (the root one when
      no given carries an environment), the law-specific match, and the legality of
      the conclusion. */
  function MatchWithGivens(args: seq<Context>, rule: Rule, primitives: seq<string>): Outcome<Output> {
    var o := Initial(primitives);
    if |args| != |rule.givens| then Ok(Fail(o))
    else
      var prefix := if AllFormulas(rule.givens) then Some([]) else InferPrefix(args, rule.givens, 0, None);
      if prefix.None? then Ok(Fail(o))
      else
        var o1 :- MatchLaw(args, rule, o.(env := prefix.value));
        if !o1.matches then Ok(o1)
        else if o1.conclusion.None? then Thrown(UndefinedOutput)
        else
          var legal :- Legal(o1.conclusion.value);
          if legal then Ok(o1) else Ok(Fail(o1))
  }

  /** matchWithGivens as the source runs it: loops over the givens for the ambient
      environment and for the ordinary laws' matching. */
  method MatchGivens(arglist: seq<Context>, rule: Rule, primitives: seq<string>) returns (r: Outcome<Output>)
    ensures r == MatchWithGivens(arglist, rule, primitives)
  {
    var output := Initial(primitives);
    if |arglist| != |rule.givens| {
      return Ok(Fail(output));
    }
    var prefix := InferAmbient(arglist, rule.givens);
    if prefix.None? {
      return Ok(Fail(output));
    }
    r := MatchAndCheck(arglist, rule, output.(env := prefix.value));
  }

  /** The first loop of matchWithGivens: unless every given is a formula, the
      environment left of each environment-carrying given's frames is proposed, and
      every later one must print alike. */
  method InferAmbient(arglist: seq<Context>, givens: seq<Context>) returns (prefix: Option<Environment>)
    requires |arglist| == |givens|
    ensures prefix == if AllFormulas(givens) then Some([]) else InferPrefix(arglist, givens, 0, None)
  {
    if AllFormulas(givens) {
      return Some([]);
    }
    var proposedYet := false;
    var proposedEnv: Environment := [];
    var i := 0;
    while i < |givens|
      invariant 0 <= i <= |givens|
      invariant !proposedYet ==> proposedEnv == []
      invariant InferPrefix(arglist, givens, 0, None) == InferPrefix(arglist, givens, i, if proposedYet then Some(proposedEnv) else None)
    {
      if CarriesEnvironment(givens[i]) {
        var argEnv := EnvOf(arglist[i]);
        if |argEnv| < |givens[i].env| {
          return None;
        }
        var candidateEnv := argEnv[..|argEnv| - |givens[i].env|];
        if !proposedYet {
          proposedYet := true;
          proposedEnv := candidateEnv;
        } else {
          var proposedText := AssumptionListToString(proposedEnv);
          var candidateText := AssumptionListToString(candidateEnv);
          if proposedText != candidateText {
            return None;
          }
        }
      }
      i := i + 1;
    }
    return Some(proposedEnv);
  }

  /** The rest of matchWithGivens: the givens matched one by one and the conclusion
      substituted (or the special law's own matcher), then the legality check. */
  method MatchAndCheck(arglist: seq<Context>, rule: Rule, start: Output) returns (r: Outcome<Output>)
    requires |arglist| == |rule.givens| && start.matches
    ensures r == (var o1 :- MatchLaw(arglist, rule, start);
                  if !o1.matches then Ok(o1)
                  else if o1.conclusion.None? then Thrown(UndefinedOutput)
                  else
                    var legal :- Legal(o1.conclusion.value);
                    if legal then Ok(o1) else Ok(Fail(o1)))
  {
    var givens := rule.givens;
    var output := start;
    if rule.kind == Ordinary {
      var i := 0;
      while i < |givens|
        invariant 0 <= i <= |givens|
        invariant output.matches
        invariant MatchGivensFrom(arglist, givens, 0, start) == MatchGivensFrom(arglist, givens, i, output)
      {
        var next := MatchGiven(arglist[i], givens[i], output);
        if next.Thrown? {
          return Thrown(next.fault);
        }
        output := next.value;
        if !output.matches {
          return Ok(output);
        }
        i := i + 1;
      }
      var conclusion := Subs(rule.conclusion, output);
      if conclusion.Thrown? {
        return Thrown(conclusion.fault);
      }
      output := output.(conclusion := Some(conclusion.value));
    } else {
      var next := MatchLaw(arglist, rule, output);
      if next.Thrown? {
        return Thrown(next.fault);
      }
      output := next.value;
      if !output.matches {
        return Ok(output);
      }
    }
    if output.conclusion.None? {
      return Thrown(UndefinedOutput);
    }
    var legal := IsLegal(output.conclusion.value);
    if legal.Thrown? {
      return Thrown(legal.fault);
    }
    if !legal.value {
      return Ok(Fail(output));
    }
    return Ok(output);
  }

  // ===== what a successful match means =====

  /** s has the shape of the template t, each placeholder standing for a sentence
      with the text of its binding. Quantifier slots match only operator and primitive
      terms, by shape. */
  predicate MatchedBy(s: Sentence, t: Sentence, v: Values)
    decreases t
  {
    match t
    case Atomic(n) => n in v && ItemText(v[n]) == Some(ShortText(s))
    case PredicateApp(_, _) => false
    case Binary(k, a, b) => s.Binary? && s.kind == k && MatchedBy(s.left, a, v) && MatchedBy(s.right, b, v)
    case Not(a) => s.Not? && MatchedBy(s.arg, a, v)
    case True => s.True?
    case False => s.False?
    case ForAll(body, bd) => s.ForAll? && MatchedBy(s.body, body, v) && BinderMatched(s.binder, bd)
    case ThereExists(body, bd) => s.ThereExists? && MatchedBy(s.body, body, v) && BinderMatched(s.binder, bd)
  }

  predicate BinderMatched(sb: Binder, tb: Binder) {
    tb.BinderTerm? && sb.BinderTerm? && TermShapeMatched(sb.term, tb.term)
  }

  /** A primitive template term matches any primitive term; an operator template
      any operator term with at least as many arguments, argument by argument. */
  predicate TermShapeMatched(st: Term, tt: Term)
    decreases tt
  {
    match tt
    case PrimitiveTerm(_) => st.PrimitiveTerm?
    case OperatorEval(_, args) =>
      st.OperatorEval? && |args| <= |st.args|
      && forall i :: 0 <= i < |args| ==> TermShapeMatched(st.args[i], args[i])
    case _ => false
  }

  /** Later bindings never undo an earlier match. */
  lemma {:induction false} MatchedByStable(s: Sentence, t: Sentence, o: Output, r: Output)
    requires Extends(o, r) && MatchedBy(s, t, o.values)
    ensures MatchedBy(s, t, r.values)
    decreases t
  {
    match t
    case Atomic(n) => assert o.values[n] != UNSET;
    case Binary(_, a, b) => MatchedByStable(s.left, a, o, r); MatchedByStable(s.right, b, o, r);
    case Not(a) => MatchedByStable(s.arg, a, o, r);
    case ForAll(body, _) => MatchedByStable(s.body, body, o, r);
    case ThereExists(body, _) => MatchedByStable(s.body, body, o, r);
    case _ =>
  }

  /** matchWithGivenSentence keeps every earlier binding, and when the match still
      stands the sentence is matched by the template under the new bindings. */
  lemma {:induction false} MatchSentenceSound(s: Sentence, t: Sentence, o: Output)
    requires MatchSentence(s, t, o).Ok?
    ensures var r := MatchSentence(s, t, o).value;
      Extends(o, r) && (r.matches ==> o.matches && MatchedBy(s, t, r.values))
    decreases t
  {
    var r := MatchSentence(s, t, o).value;
    if o.matches {
      match t
      case Binary(k, a, b) =>
        if s.Binary? && s.kind == k {
          MatchSentenceSound(s.left, a, o);
          var o1 := MatchSentence(s.left, a, o).value;
          MatchSentenceSound(s.right, b, o1);
          ExtendsTransitive(o, o1, r);
          if r.matches { MatchedByStable(s.left, a, o1, r); }
        }
      case Not(a) =>
        if s.Not? { MatchSentenceSound(s.arg, a, o); }
      case ForAll(body, bd) =>
        if s.ForAll? {
          MatchSentenceSound(s.body, body, o);
          var o1 := MatchSentence(s.body, body, o).value;
          MatchBinderSound(s.binder, bd, o1);
        }
      case ThereExists(body, bd) =>
        if s.ThereExists? {
          MatchSentenceSound(s.body, body, o);
          var o1 := MatchSentence(s.body, body, o).value;
          MatchBinderSound(s.binder, bd, o1);
        }
      case _ =>
    }
  }

  /** The quantifier slot binds nothing: the match stands or fails as it is. */
  lemma MatchBinderSound(sb: Binder, tb: Binder, o: Output)
    requires MatchBinder(sb, tb, o).Ok?
    ensures var r := MatchBinder(sb, tb, o).value;
      (r == o || r == Fail(o)) && (r.matches ==> o.matches && BinderMatched(sb, tb))
  {
    if o.matches && tb.BinderTerm? && sb.BinderTerm? {
      MatchTermNodeSound(sb.term, tb.term, o);
    }
  }

  lemma {:induction false} MatchTermNodeSound(st: Term, tt: Term, o: Output)
    requires MatchTermNode(st, tt, o).Ok?
    ensures var r := MatchTermNode(st, tt, o).value;
      (r == o || r == Fail(o)) && (r.matches ==> o.matches && TermShapeMatched(st, tt))
    decreases tt, 1, 0
  {
    if o.matches && SameSubtype(st, tt) && tt.OperatorEval? {
      MatchTermArgsSound(st.args, tt, 0, o);
    }
  }

  lemma {:induction false} MatchTermArgsSound(sargs: seq<Term>, tt: Term, i: nat, o: Output)
    requires tt.OperatorEval? && i <= |tt.args|
    requires MatchTermArgs(sargs, tt, i, o).Ok?
    ensures var r := MatchTermArgs(sargs, tt, i, o).value;
      && (r == o || r == Fail(o))
      && (r.matches ==> o.matches && (i < |tt.args| ==> |tt.args| <= |sargs|) && forall j :: i <= j < |tt.args| ==> TermShapeMatched(sargs[j], tt.args[j]))
    decreases tt, 0, |tt.args| - i
  {
    if i < |tt.args| && o.matches {
      MatchTermNodeSound(sargs[i], tt.args[i], o);
      var o1 := MatchTermNode(sargs[i], tt.args[i], o).value;
      MatchTermArgsSound(sargs, tt, i + 1, o1);
      var r := MatchTermArgs(sargs, tt, i, o).value;
      if r.matches {
      }
    }
  }

  /** Matching a sentence against a template it already matches under the current
      bindings succeeds and changes nothing: a second match of the same pair is a
      no-op. */
  lemma {:induction false} MatchSentenceComplete(s: Sentence, t: Sentence, o: Output)
    requires o.matches && MatchedBy(s, t, o.values)
    ensures MatchSentence(s, t, o) == Ok(o)
    decreases t
  {
    match t
    case Binary(_, a, b) => MatchSentenceComplete(s.left, a, o); MatchSentenceComplete(s.right, b, o);
    case Not(a) => MatchSentenceComplete(s.arg, a, o);
    case ForAll(body, bd) => MatchSentenceComplete(s.body, body, o); MatchTermNodeComplete(s.binder.term, bd.term, o);
    case ThereExists(body, bd) => MatchSentenceComplete(s.body, body, o); MatchTermNodeComplete(s.binder.term, bd.term, o);
    case _ =>
  }

  lemma {:induction false} MatchTermNodeComplete(st: Term, tt: Term, o: Output)
    requires o.matches && TermShapeMatched(st, tt)
    ensures MatchTermNode(st, tt, o) == Ok(o)
    decreases tt, 1, 0
  {
    if tt.OperatorEval? {
      MatchTermArgsComplete(st.args, tt, 0, o);
    }
  }

  lemma {:induction false} MatchTermArgsComplete(sargs: seq<Term>, tt: Term, i: nat, o: Output)
    requires tt.OperatorEval? && i <= |tt.args| && o.matches
    requires (i < |tt.args| ==> |tt.args| <= |sargs|) && forall j :: i <= j < |tt.args| ==> TermShapeMatched(sargs[j], tt.args[j])
    ensures MatchTermArgs(sargs, tt, i, o) == Ok(o)
    decreases tt, 0, |tt.args| - i
  {
    if i < |tt.args| {
      MatchTermNodeComplete(sargs[i], tt.args[i], o);
      MatchTermArgsComplete(sargs, tt, i + 1, o);
    }
  }

  /** Once a match stands, matching the same pair again is a no-op. */
  lemma MatchSentenceIdempotent(s: Sentence, t: Sentence, o: Output)
    requires MatchSentence(s, t, o).Ok? && MatchSentence(s, t, o).value.matches
    ensures MatchSentence(s, t, MatchSentence(s, t, o).value) == MatchSentence(s, t, o)
  {
    MatchSentenceSound(s, t, o);
    MatchSentenceComplete(s, t, MatchSentence(s, t, o).value);
  }

  /** A template built from placeholders and connectives only. */
  predicate Propositional(t: Sentence) {
    match t
    case Atomic(_) => true
    case Binary(_, a, b) => Propositional(a) && Propositional(b)
    case Not(a) => Propositional(a)
    case True => true
    case False => true
    case _ => false
  }

  lemma {:induction false} InstanceMatched(t: Sentence, v: Values, s: Sentence)
    requires Propositional(t) && Instantiated(t, v, s)
    ensures MatchedBy(s, t, v)
  {
    match t
    case Binary(_, a, b) => InstanceMatched(a, v, s.left); InstanceMatched(b, v, s.right);
    case Not(a) => InstanceMatched(a, v, s.arg);
    case _ =>
  }

  /** Matching undoes instantiation: the sentence subsSentence builds from a
      propositional template is matched by that template under the same bindings,
      with nothing to add. */
  lemma SubsThenMatch(t: Sentence, o: Output)
    requires o.matches && Propositional(t) && SubsSentence(t, o.values).Ok?
    ensures MatchSentence(SubsSentence(t, o.values).value, t, o) == Ok(o)
  {
    var s := SubsSentence(t, o.values).value;
    SubsSentenceInstantiates(t, o.values, s);
    InstanceMatched(t, o.values, s);
    MatchSentenceComplete(s, t, o);
  }

  // ----- frames, terms and whole contexts -----

  predicate FrameMatched(a: Assumption, t: Assumption, v: Values) {
    && KindOf(a) == KindOf(t)
    && (!a.Letting? ==> MatchedBy(a.sentence, t.sentence, v))
    && (!a.Assuming? ==> t.variable in v && v[t.variable] == FreeItem(a.variable))
  }

  /** The template frames stand for the frames of cenv right after the first
      `offset` (an empty template says nothing about cenv). */
  predicate FramesMatched(cenv: Environment, tenv: Environment, offset: nat, v: Values) {
    && (|tenv| > 0 ==> offset + |tenv| <= |cenv|)
    && forall j :: 0 <= j < |tenv| ==> FrameMatched(cenv[j + offset], tenv[j], v)
  }

  predicate TermMatched(term: Term, t: Term, v: Values) {
    match t
    case FreeVar(n) => term.FreeVar? && n in v && v[n] == FreeItem(term.free)
    case BoundVar(n) => term.BoundVar? && n in v && v[n] == BoundItem(term.bound)
    case _ => true
  }

  /** c is an instance of the given t, its frames after the first `offset`. */
  predicate GivenMatched(c: Context, t: Context, offset: nat, v: Values) {
    && SameKind(c, t)
    && (CarriesEnvironment(t) ==> FramesMatched(EnvOf(c), t.env, offset, v))
    && (t.Formula? || t.SentenceInEnv? ==> MatchedBy(c.sentence, t.sentence, v))
    && (t.TermContext? ==> TermMatched(c.term, t.term, v))
  }

  lemma FrameMatchedStable(a: Assumption, t: Assumption, o: Output, r: Output)
    requires Extends(o, r) && FrameMatched(a, t, o.values)
    ensures FrameMatched(a, t, r.values)
  {
    if !a.Letting? { MatchedByStable(a.sentence, t.sentence, o, r); }
  }

  lemma GivenMatchedStable(c: Context, t: Context, offset: nat, o: Output, r: Output)
    requires Extends(o, r) && GivenMatched(c, t, offset, o.values)
    ensures GivenMatched(c, t, offset, r.values)
  {
    if CarriesEnvironment(t) {
      forall j | 0 <= j < |t.env| ensures FrameMatched(EnvOf(c)[j + offset], t.env[j], r.values) {
        FrameMatchedStable(EnvOf(c)[j + offset], t.env[j], o, r);
      }
    }
    if t.Formula? || t.SentenceInEnv? { MatchedByStable(c.sentence, t.sentence, o, r); }
  }

  lemma MatchTermSound(term: Term, t: Term, o: Output)
    ensures var r := MatchTerm(term, t, o);
      Extends(o, r) && (r.matches ==> o.matches && TermMatched(term, t, r.values))
  {
  }

  lemma MatchAssumptionSound(a: Assumption, t: Assumption, o: Output)
    requires MatchAssumption(a, t, o).Ok?
    ensures var r := MatchAssumption(a, t, o).value;
      Extends(o, r) && (r.matches ==> o.matches && FrameMatched(a, t, r.values))
  {
    var r := MatchAssumption(a, t, o).value;
    if o.matches && KindOf(a) == KindOf(t) && !a.Letting? {
      MatchSentenceSound(a.sentence, t.sentence, o);
      var o1 := MatchSentence(a.sentence, t.sentence, o).value;
      if a.Setting? {
        ExtendsTransitive(o, o1, r);
        if r.matches { MatchedByStable(a.sentence, t.sentence, o1, r); }
      }
    }
  }

  lemma {:induction false} MatchFramesSound(cenv: Environment, tenv: Environment, i: nat, o: Output)
    requires MatchFrames(cenv, tenv, i, o).Ok?
    ensures var r := MatchFrames(cenv, tenv, i, o).value;
      && Extends(o, r)
      && (r.matches ==> o.matches && (i < |tenv| ==> |tenv| + |o.env| <= |cenv|) && forall j :: i <= j < |tenv| ==> FrameMatched(cenv[j + |o.env|], tenv[j], r.values))
    decreases |tenv| - i
  {
    var r := MatchFrames(cenv, tenv, i, o).value;
    if i < |tenv| && o.matches {
      MatchAssumptionSound(cenv[i + |o.env|], tenv[i], o);
      var o1 := MatchAssumption(cenv[i + |o.env|], tenv[i], o).value;
      MatchFramesSound(cenv, tenv, i + 1, o1);
      ExtendsTransitive(o, o1, r);
      if r.matches {
        assert o1.env == o.env;
        FrameMatchedStable(cenv[i + |o.env|], tenv[i], o1, r);
        forall j | i <= j < |tenv| ensures FrameMatched(cenv[j + |o.env|], tenv[j], r.values) {
          if j > i {
            assert FrameMatched(cenv[j + |o1.env|], tenv[j], r.values);
          }
        }
      }
    }
  }

  lemma MatchGivenSound(c: Context, t: Context, o: Output)
    requires MatchGiven(c, t, o).Ok?
    ensures var r := MatchGiven(c, t, o).value;
      Extends(o, r) && (r.matches ==> o.matches && GivenMatched(c, t, |o.env|, r.values))
  {
    var r := MatchGiven(c, t, o).value;
    if o.matches && SameKind(c, t) {
      var o1 := o;
      if CarriesEnvironment(t) {
        MatchFramesSound(EnvOf(c), t.env, 0, o);
        o1 := MatchFrames(EnvOf(c), t.env, 0, o).value;
      }
      if t.Formula? || t.SentenceInEnv? {
        MatchSentenceSound(c.sentence, t.sentence, o1);
      } else if t.TermContext? {
        MatchTermSound(c.term, t.term, o1);
      }
      ExtendsTransitive(o, o1, r);
      if r.matches && CarriesEnvironment(t) {
        forall j | 0 <= j < |t.env| ensures FrameMatched(EnvOf(c)[j + |o.env|], t.env[j], r.values) {
          FrameMatchedStable(EnvOf(c)[j + |o.env|], t.env[j], o1, r);
        }
      }
    }
  }

  lemma {:induction false} MatchGivensFromSound(args: seq<Context>, givens: seq<Context>, i: nat, o: Output)
    requires |args| == |givens| && i <= |givens|
    requires MatchGivensFrom(args, givens, i, o).Ok?
    ensures var r := MatchGivensFrom(args, givens, i, o).value;
      && Extends(o, r)
      && (r.matches ==> o.matches && forall j :: i <= j < |givens| ==> GivenMatched(args[j], givens[j], |o.env|, r.values))
    decreases |givens| - i
  {
    var r := MatchGivensFrom(args, givens, i, o).value;
    if i < |givens| {
      MatchGivenSound(args[i], givens[i], o);
      var o1 := MatchGiven(args[i], givens[i], o).value;
      if o1.matches {
        MatchGivensFromSound(args, givens, i + 1, o1);
        ExtendsTransitive(o, o1, r);
        if r.matches { GivenMatchedStable(args[i], givens[i], |o.env|, o1, r); }
      }
    }
  }

  // ----- the ambient environment -----

  /** When the prefix loop settles on an environment, every environment-carrying
      given from the i-th on has a justification with at least as many frames, and
      the frames above the template's have the same canonical text as the settled
      environment, which is the proposed one if there was one. */
  lemma {:induction false} InferPrefixSound(args: seq<Context>, givens: seq<Context>, i: nat, proposed: Option<Environment>)
    requires |args| == |givens| && i <= |givens|
    requires InferPrefix(args, givens, i, proposed).Some?
    ensures var p := InferPrefix(args, givens, i, proposed).value;
      && (proposed.Some? ==> p == proposed.value)
      && forall j :: i <= j < |givens| && CarriesEnvironment(givens[j]) ==>
           |EnvOf(givens[j])| <= |EnvOf(args[j])| && EnvText(Candidate(args[j], givens[j])) == EnvText(p)
    decreases |givens| - i
  {
    if i < |givens| {
      if !CarriesEnvironment(givens[i]) {
        InferPrefixSound(args, givens, i + 1, proposed);
      } else {
        var candidate := Candidate(args[i], givens[i]);
        var next := if proposed.None? then Some(candidate) else proposed;
        InferPrefixSound(args, givens, i + 1, next);
      }
    }
  }

  /** Conversely, when every such given agrees with a proposed environment the loop
      settles on it. */
  lemma {:induction false} InferPrefixComplete(args: seq<Context>, givens: seq<Context>, i: nat, q: Environment)
    requires |args| == |givens| && i <= |givens|
    requires forall j :: i <= j < |givens| && CarriesEnvironment(givens[j]) ==>
      |EnvOf(givens[j])| <= |EnvOf(args[j])| && EnvText(Candidate(args[j], givens[j])) == EnvText(q)
    ensures InferPrefix(args, givens, i, Some(q)) == Some(q)
    decreases |givens| - i
  {
    if i < |givens| {
      InferPrefixComplete(args, givens, i + 1, q);
    }
  }

  // ----- the whole match -----

  /** What a successful match promises: the arities agree; the conclusion exists
      and is legal; the placeholders are exactly the law's; the ambient environment
      is the root one when no given carries an environment, and otherwise the
      environment-carrying justifications all sit in it; and for an ordinary law
      every justification is an instance of its given and the conclusion is the
      law's conclusion instantiated with the bindings. */
  lemma MatchSound(args: seq<Context>, rule: Rule, primitives: seq<string>)
    requires MatchWithGivens(args, rule, primitives).Ok? && MatchWithGivens(args, rule, primitives).value.matches
    ensures var r := MatchWithGivens(args, rule, primitives).value;
      && |args| == |rule.givens|
      && r.conclusion.Some? && Legal(r.conclusion.value) == Ok(true) && ContextAdmissible(r.conclusion.value)
      && r.values.Keys == set n | n in primitives
      && (AllFormulas(rule.givens) ==> r.env == [])
      && (forall j :: 0 <= j < |args| && CarriesEnvironment(rule.givens[j]) ==>
            |EnvOf(rule.givens[j])| <= |EnvOf(args[j])| && EnvText(Candidate(args[j], rule.givens[j])) == EnvText(r.env))
      && (rule.kind == Ordinary ==>
            && (forall j :: 0 <= j < |args| ==> GivenMatched(args[j], rule.givens[j], |r.env|, r.values))
            && Subs(rule.conclusion, r) == Ok(r.conclusion.value))
  {
    var r := MatchWithGivens(args, rule, primitives).value;
    var o := Initial(primitives);
    var prefix := if AllFormulas(rule.givens) then Some([]) else InferPrefix(args, rule.givens, 0, None);
    if !AllFormulas(rule.givens) {
      InferPrefixSound(args, rule.givens, 0, None);
    }
    var o0 := o.(env := prefix.value);
    MatchLawSound(args, rule, o0);
    assert r == MatchLaw(args, rule, o0).value;
    LegalIff(r.conclusion.value);
  }

  /** The law-specific part keeps the placeholders and the ambient environment; for
      an ordinary law a standing match has every justification an instance of its
      given and the instantiated conclusion. */
  lemma MatchLawSound(args: seq<Context>, rule: Rule, o: Output)
    requires |args| == |rule.givens| && MatchLaw(args, rule, o).Ok?
    ensures var r := MatchLaw(args, rule, o).value;
      && r.values.Keys == o.values.Keys && r.env == o.env
      && (rule.kind == Ordinary && r.matches ==>
            && (forall j :: 0 <= j < |args| ==> GivenMatched(args[j], rule.givens[j], |r.env|, r.values))
            && r.conclusion.Some? && Subs(rule.conclusion, r) == Ok(r.conclusion.value))
  {
    if rule.kind == Ordinary {
      MatchGivensFromSound(args, rule.givens, 0, o);
      var o2 := MatchGivensFrom(args, rule.givens, 0, o).value;
      if o2.matches {
        var r := MatchLaw(args, rule, o).value;
        assert r == o2.(conclusion := r.conclusion);
        SubsReadsBindings(rule.conclusion, o2, r);
      }
    }
  }

  /** subs reads only the ambient environment and the bindings of the output. */
  lemma SubsReadsBindings(template: Context, o: Output, r: Output)
    requires o.env == r.env && o.values == r.values
    ensures Subs(template, o) == Subs(template, r)
  {
    assert o.(conclusion := r.conclusion, matches := r.matches) == r;
  }

  /** The first law of universal introduction: from a statement proved under "let x
      be arbitrary" (the frame just below the ambient environment) and a bound
      variable b, it concludes FOR ALL b, the statement with x renamed to b, in the
      ambient environment. */
  lemma UniversalIntroductionSound(args: seq<Context>, rule: Rule, primitives: seq<string>)
    requires rule.kind == UniversalIntroduction
    requires MatchWithGivens(args, rule, primitives).Ok? && MatchWithGivens(args, rule, primitives).value.matches
    ensures var r := MatchWithGivens(args, rule, primitives).value;
      && |args| >= 2 && args[0].SentenceInEnv? && |r.env| < |args[0].env| && args[0].env[|r.env|].Letting?
      && args[1].TermContext? && args[1].term.BoundVar?
      && !Unhandled(args[0].sentence)
      && r.conclusion == Some(SentenceInEnv(
           ForAll(RenameFree(args[0].sentence, args[0].env[|r.env|].variable, args[1].term.bound), BinderVar(args[1].term.bound)),
           r.env))
  {
    var r := MatchWithGivens(args, rule, primitives).value;
    if |args| >= 2 && args[0].SentenceInEnv? && |r.env| < |args[0].env| && args[0].env[|r.env|].Letting? && args[1].TermContext? && args[1].term.BoundVar? {
      FreeToBoundIsRename(args[0].sentence, args[0].env[|r.env|].variable, args[1].term.bound);
    }
  }

  /** The second law of universal introduction: the same, with the bound variable
      chosen as the first of X, Y, Z, X', ... that the statement's quantifiers do
      not already use. */
  lemma UniversalIntroduction2Sound(args: seq<Context>, rule: Rule, primitives: seq<string>)
    requires rule.kind == UniversalIntroduction2
    requires MatchWithGivens(args, rule, primitives).Ok? && MatchWithGivens(args, rule, primitives).value.matches
    ensures var r := MatchWithGivens(args, rule, primitives).value;
      && |args| >= 2 && args[0].SentenceInEnv? && |r.env| < |args[0].env| && args[0].env[|r.env|].Letting?
      && args[1].EnvironmentContext?
      && !Unhandled(args[0].sentence)
      && var b := NextBoundVariable(args[0].sentence);
      && b !in BoundNamesIn(args[0].sentence)
      && r.conclusion == Some(SentenceInEnv(
           ForAll(RenameFree(args[0].sentence, args[0].env[|r.env|].variable, b), BinderVar(b)),
           r.env))
  {
    var r := MatchWithGivens(args, rule, primitives).value;
    if |args| >= 2 && args[0].SentenceInEnv? && |r.env| < |args[0].env| && args[0].env[|r.env|].Letting? {
      var b := NextBoundVariable(args[0].sentence);
      FreeToBoundIsRename(args[0].sentence, args[0].env[|r.env|].variable, b);
    }
  }

  /** Universal specification: from FOR ALL X, P and a term u it concludes P with the
      bound variable X replaced by u, in the ambient environment. */
  lemma UniversalSpecificationSound(args: seq<Context>, rule: Rule, primitives: seq<string>)
    requires rule.kind == UniversalSpecification
    requires MatchWithGivens(args, rule, primitives).Ok? && MatchWithGivens(args, rule, primitives).value.matches
    ensures var r := MatchWithGivens(args, rule, primitives).value;
      && |args| >= 2 && args[0].SentenceInEnv? && args[0].sentence.ForAll? && args[1].TermContext?
      && !Unhandled(args[0].sentence.body)
      && r.conclusion == Some(SentenceInEnv(
           ReplaceBound(args[0].sentence.body, SpecifiedName(args[0].sentence.binder), args[1].term),
           r.env))
  {
    if |args| >= 2 && args[0].SentenceInEnv? && args[0].sentence.ForAll? && args[1].TermContext? {
      BoundToTermIsReplace(args[0].sentence.body, SpecifiedName(args[0].sentence.binder), args[1].term);
    }
  }

  /** Specialising a universal introduced from x back to x gives the statement back,
      provided the chosen bound variable did not already occur as a leaf. */
  lemma SpecificationUndoesIntroduction(statement: Sentence, x: string, b: string, env: Environment, o: Output)
    requires o.matches && !Unhandled(statement) && b !in BoundLeaves(statement)
    ensures var introduced := SentenceInEnv(ForAll(RenameFree(statement, x, b), BinderVar(b)), env);
      MatchUniversalSpecification([introduced, TermContext(FreeVar(x))], o)
        == Ok(o.(conclusion := Some(SentenceInEnv(statement, o.env))))
  {
    RenameFreeHandled(statement, x, b);
    BoundToTermIsReplace(RenameFree(statement, x, b), Some(b), FreeVar(x));
    RenameFreeRoundTrip(statement, x, b);
  }
}

=== FILE: outcomes.dfy ===
/** Result wrappers shared by the whole engine.
    The engine never catches anything: a `Thrown` outcome stands for a JavaScript
    exception (or an `undefined` value that the caller dereferences), which ends the
    scan over the law catalogue that was in progress. */
module Outcomes {

  datatype Option<+T> = None | Some(value: T)

  /** The kinds of abnormal exit the engine can take. */
  datatype Fault =
    | TypeMismatch        // a value of the wrong kind reached a conversion or a property access
    | UndefinedOutput     // freeToBound/boundToTerm fall through to the undeclared `output`
    | Unsupported         // a template feature the substitution engine refuses ("not implemented")
    | MissingElement      // an index past the end of a list was read

  datatype Outcome<+T> = Ok(value: T) | Thrown(fault: Fault) {
    predicate IsFailure() { Thrown? }

    function PropagateFailure<U>(): Outcome<U>
      requires Thrown?
    {
      Thrown(fault)
    }

    function Extract(): T
      requires Ok?
    {
      value
    }
  }
}

=== FILE: primitives.dfy ===
/** listPrimitives and the pushPrimitives* walkers: the names of the atomic
    sentences, free variables, bound variables and primitive terms that occur in a
    law, each listed once, in order of first occurrence. The matcher seeds its
    binding map with these names. The global name-to-node table the walkers also
    fill is not part of this model. */
module Primitives {
  import opened Ast
  import opened Environments

  /** Which kinds of name to collect (getPrimitives, getFreeVars, getBoundVars, getPrimTerms). */
  datatype Kinds = Kinds(atomics: bool, frees: bool, bounds: bool, primTerms: bool)

  const ALL_KINDS := Kinds(true, true, true, true)
  const BOUND_ONLY := Kinds(false, false, true, false)

  // ----- the names met, in walk order, repeats included -----

  /** A term contributes its name only when it is a variable or a primitive term:
      the walker's test for operator terms compares the subtype with "operator",
      which no term has (operatorTerm writes "operator evaluation"), so it never
      looks inside an operator term. */
  function TermNames(t: Term, k: Kinds): seq<string> {
    match t
    case PrimitiveTerm(text) => if k.primTerms then [text] else []
    case FreeVar(n) => if k.frees then [n] else []
    case BoundVar(n) => if k.bounds then [n] else []
    case OperatorEval(_, _) => []
  }

  function TermsNames(args: seq<Term>, k: Kinds): seq<string> {
    if |args| == 0 then [] else TermNames(args[0], k) + TermsNames(args[1..], k)
  }

  /** The quantifier's own variable. Only a bound variable in the slot has a name;
      the source pushes `undefined` for a term there, which the model leaves out. */
  function BinderNames(b: Binder, k: Kinds): seq<string> {
    if k.bounds && b.BinderVar? then [b.name] else []
  }

  function SentenceNames(s: Sentence, k: Kinds): seq<string> {
    match s
    case Atomic(name) => if k.atomics then [name] else []
    case PredicateApp(_, args) => (if k.atomics then [ShortText(s)] else []) + TermsNames(args, k)
    case ForAll(body, b) => BinderNames(b, k) + SentenceNames(body, k)
    case ThereExists(body, b) => BinderNames(b, k) + SentenceNames(body, k)
    case Binary(_, l, r) => SentenceNames(l, k) + SentenceNames(r, k)
    case Not(a) => SentenceNames(a, k)
    case True => []
    case False => []
  }

  function FrameNames(a: Assumption, k: Kinds): seq<string> {
    match a
    case Assuming(s) => SentenceNames(s, k)
    case Letting(v) => if k.frees then [v] else []
    case Setting(v, s) => SentenceNames(s, k) + (if k.frees then [v] else [])
  }

  function FramesNames(env: Environment, k: Kinds): seq<string> {
    if |env| == 0 then [] else FrameNames(env[0], k) + FramesNames(env[1..], k)
  }

  function ContextNames(c: Context, k: Kinds): seq<string> {
    match c
    case Formula(s) => SentenceNames(s, k)
    case SentenceInEnv(s, env) => SentenceNames(s, k) + FramesNames(env, k)
    case EnvironmentContext(env) => FramesNames(env, k)
    case TermContext(t) => TermNames(t, k)
  }

  function ContextsNames(cs: seq<Context>, k: Kinds): seq<string> {
    if |cs| == 0 then [] else ContextNames(cs[0], k) + ContextsNames(cs[1..], k)
  }

  // ----- appending without repeats -----

  /** `list` followed by each of `names` that is not already present. */
  function AddNew(list: seq<string>, names: seq<string>): seq<string>
    decreases |names|
  {
    if |names| == 0 then list
    else AddNew(if names[0] in list then list else list + [names[0]], names[1..])
  }

  predicate NoRepeats(list: seq<string>) {
    forall i, j :: 0 <= i < j < |list| ==> list[i] != list[j]
  }

  /** What appending without repeats promises: the old list is kept as a prefix,
      exactly the old and the new names are present, and none twice. */
  lemma {:induction false} AddNewSpec(list: seq<string>, names: seq<string>)
    ensures |list| <= |AddNew(list, names)| && AddNew(list, names)[..|list|] == list
    ensures forall n :: n in AddNew(list, names) <==> n in list || n in names
    ensures NoRepeats(list) ==> NoRepeats(AddNew(list, names))
    decreases |names|
  {
    if |names| > 0 {
      var next := if names[0] in list then list else list + [names[0]];
      AddNewSpec(next, names[1..]);
      assert next[..|list|] == list;
      assert forall n :: n in names <==> n == names[0] || n in names[1..] by {
        assert names == [names[0]] + names[1..];
      }
    }
  }

  lemma {:induction false} AddNewAppend(list: seq<string>, a: seq<string>, b: seq<string>)
    ensures AddNew(list, a + b) == AddNew(AddNew(list, a), b)
    decreases |a|
  {
    if |a| > 0 {
      assert (a + b)[0] == a[0] && (a + b)[1..] == a[1..] + b;
      AddNewAppend(if a[0] in list then list else list + [a[0]], a[1..], b);
    } else {
      assert a + b == b;
    }
  }

  // ----- the walkers -----

  method PushPrimitivesFromTerm(list: seq<string>, term: Term, k: Kinds) returns (list': seq<string>)
    ensures list' == AddNew(list, TermNames(term, k))
  {
    list' := list;
    match term {
      case PrimitiveTerm(text) =>
        if k.primTerms && text !in list' {
          list' := list' + [text];
        }
      case FreeVar(n) =>
        if k.frees && n !in list' {
          list' := list' + [n];
        }
      case BoundVar(n) =>
        if k.bounds && n !in list' {
          list' := list' + [n];
        }
      case OperatorEval(_, _) =>
    }
  }

  method PushPrimitivesFromSentence(list: seq<string>, sentence: Sentence, k: Kinds) returns (list': seq<string>)
    ensures list' == AddNew(list, SentenceNames(sentence, k))
    decreases sentence
  {
    list' := list;
    match sentence {
      case Atomic(name) =>
        if k.atomics && name !in list' {
          list' := list' + [name];
        }
      case PredicateApp(_, args) =>
        var name := ShortText(sentence);
        if k.atomics && name !in list' {
          list' := list' + [name];
        }
        ghost var before := list';
        var i := 0;
        while i < |args|
          invariant 0 <= i <= |args|
          invariant list' == AddNew(before, TermsNames(args[..i], k))
        {
          TermsNamesSnoc(args[..i + 1], k);
          assert args[..i + 1][..i] == args[..i];
          AddNewAppend(before, TermsNames(args[..i], k), TermNames(args[i], k));
          list' := PushPrimitivesFromTerm(list', args[i], k);
          i := i + 1;
        }
        assert args[..i] == args;
        AddNewAppend(list, if k.atomics then [name] else [], TermsNames(args, k));
      case ForAll(body, b) =>
        if k.bounds && b.BinderVar? && b.name !in list' {
          list' := list' + [b.name];
        }
        list' := PushPrimitivesFromSentence(list', body, k);
        AddNewAppend(list, BinderNames(b, k), SentenceNames(body, k));
      case ThereExists(body, b) =>
        if k.bounds && b.BinderVar? && b.name !in list' {
          list' := list' + [b.name];
        }
        list' := PushPrimitivesFromSentence(list', body, k);
        AddNewAppend(list, BinderNames(b, k), SentenceNames(body, k));
      case Binary(_, l, r) =>
        list' := PushPrimitivesFromSentence(list', l, k);
        list' := PushPrimitivesFromSentence(list', r, k);
        AddNewAppend(list, SentenceNames(l, k), SentenceNames(r, k));
      case Not(a) =>
        list' := PushPrimitivesFromSentence(list', a, k);
      case True =>
      case False =>
    }
  }

  lemma {:induction false} TermsNamesSnoc(args: seq<Term>, k: Kinds)
    requires |args| > 0
    ensures TermsNames(args, k) == TermsNames(args[..|args| - 1], k) + TermNames(args[|args| - 1], k)
    decreases |args|
  {
    if |args| > 1 {
      TermsNamesSnoc(args[1..], k);
      assert args[1..][..|args| - 2] == args[..|args| - 1][1..];
    } else {
      assert args[..0] == [];
    }
  }

  lemma {:induction false} FramesNamesSnoc(env: Environment, k: Kinds)
    requires |env| > 0
    ensures FramesNames(env, k) == FramesNames(env[..|env| - 1], k) + FrameNames(env[|env| - 1], k)
    decreases |env|
  {
    if |env| > 1 {
      FramesNamesSnoc(env[1..], k);
      assert env[1..][..|env| - 2] == env[..|env| - 1][1..];
    } else {
      assert env[..0] == [];
    }
  }

  lemma {:induction false} ContextsNamesSnoc(cs: seq<Context>, k: Kinds)
    requires |cs| > 0
    ensures ContextsNames(cs, k) == ContextsNames(cs[..|cs| - 1], k) + ContextNames(cs[|cs| - 1], k)
    decreases |cs|
  {
    if |cs| > 1 {
      ContextsNamesSnoc(cs[1..], k);
      assert cs[1..][..|cs| - 2] == cs[..|cs| - 1][1..];
    } else {
      assert cs[..0] == [];
    }
  }

  method PushPrimitivesFromContext(list: seq<string>, context: Context, k: Kinds) returns (list': seq<string>)
    ensures list' == AddNew(list, ContextNames(context, k))
  {
    list' := list;
    if context.Formula? || context.SentenceInEnv? {
      list' := PushPrimitivesFromSentence(list', context.sentence, k);
    }
    if context.EnvironmentContext? || context.SentenceInEnv? {
      var env := context.env;
      ghost var before := list';
      var i := 0;
      while i < |env|
        invariant 0 <= i <= |env|
        invariant list' == AddNew(before, FramesNames(env[..i], k))
      {
        var item := env[i];
        FramesNamesSnoc(env[..i + 1], k);
        assert env[..i + 1][..i] == env[..i];
        AddNewAppend(before, FramesNames(env[..i], k), FrameNames(item, k));
        ghost var mid := list';
        if item.Assuming? || item.Setting? {
          list' := PushPrimitivesFromSentence(list', item.sentence, k);
        }
        if item.Setting? || item.Letting? {
          if k.frees && item.variable !in list' {
            list' := list' + [item.variable];
          }
        }
        if item.Setting? {
          AddNewAppend(mid, SentenceNames(item.sentence, k), if k.frees then [item.variable] else []);
        }
        i := i + 1;
      }
      assert env[..i] == env;
      if context.SentenceInEnv? {
        AddNewAppend(list, SentenceNames(context.sentence, k), FramesNames(env, k));
      }
    }
    if context.TermContext? {
      list' := PushPrimitivesFromTerm(list', context.term, k);
    }
  }

  /** listPrimitives: the names met in the givens, then in the conclusion (which
      can introduce names of its own, such as the variable of a quantifier). */
  method ListPrimitives(givens: seq<Context>, conclusion: Context, k: Kinds) returns (list: seq<string>)
    ensures list == AddNew([], ContextsNames(givens + [conclusion], k))
    ensures NoRepeats(list)
    ensures forall n :: n in list <==> n in ContextsNames(givens + [conclusion], k)
  {
    list := [];
    var i := 0;
    while i < |givens|
      invariant 0 <= i <= |givens|
      invariant list == AddNew([], ContextsNames(givens[..i], k))
    {
      ContextsNamesSnoc(givens[..i + 1], k);
      assert givens[..i + 1][..i] == givens[..i];
      AddNewAppend([], ContextsNames(givens[..i], k), ContextNames(givens[i], k));
      list := PushPrimitivesFromContext(list, givens[i], k);
      i := i + 1;
    }
    assert givens[..i] == givens;
    var all := givens + [conclusion];
    ContextsNamesSnoc(all, k);
    assert all[..|all| - 1] == givens;
    AddNewAppend([], ContextsNames(givens, k), ContextNames(conclusion, k));
    list := PushPrimitivesFromContext(list, conclusion, k);
    AddNewSpec([], ContextsNames(all, k));
  }
}

=== FILE: registry.dfy ===
/** The law registry: each law gets the next index when it is created, a law whose
    givens are all formulas but whose conclusion lives in an environment gets a
    clone that also takes an environment, and unlocking a law makes it (and its
    clone) available to the matcher, in the order of unlocking. */
module Registry {
  import opened Outcomes
  import opened Environments
  import opened Matcher

  /** The rule of the clone the Law constructor adds: the same givens followed by
      the root environment, and the same conclusion. Only a law with formula-only
      givens and an environment-carrying conclusion gets one. */
  function CloneRule(rule: Rule): (r: Option<Rule>)
    ensures r.Some? <==> AllFormulas(rule.givens) && CarriesEnvironment(rule.conclusion)
    ensures r.Some? ==>
      r.value.givens == rule.givens + [EnvironmentContext([])] && r.value.conclusion == rule.conclusion && r.value.kind == rule.kind
  {
    if AllFormulas(rule.givens) && CarriesEnvironment(rule.conclusion) then
      Some(rule.(givens := rule.givens + [EnvironmentContext([])]))
    else None
  }

  /** A clone's last given carries an environment, so a clone never gets a clone of
      its own. */
  lemma CloneHasNoClone(rule: Rule)
    requires CloneRule(rule).Some?
    ensures CloneRule(CloneRule(rule).value).None?
  {
    var givens := CloneRule(rule).value.givens;
    assert CarriesEnvironment(givens[|givens| - 1]);
  }

  class Law {
    const name: string
    const rule: Rule
    /** The order in which the law was created; circularity is judged by it. */
    const index: nat
    /** The clone is made while the law is constructed and never replaced. */
    const clone: Law?
    var unlocked: bool

    constructor (name: string, rule: Rule, index: nat, clone: Law?)
      ensures this.name == name && this.rule == rule && this.index == index && this.clone == clone
      ensures !unlocked
    {
      this.name := name;
      this.rule := rule;
      this.index := index;
      this.clone := clone;
      unlocked := false;
    }
  }

  class Registry {
    /** The laws available to the matcher, in the order they were unlocked. */
    var unlockedLaws: seq<Law>
    /** How many laws have been created so far. */
    var numLaws: nat
    ghost var laws: set<Law>

    /** Every law created so far: it has its clone exactly when the clone rule
        gives one, the clone has the next index; a law is unlocked exactly when it is
        listed, and no law is listed twice. */
    ghost predicate Valid()
      reads this, laws
    {
      && (forall l :: l in laws ==> 0 < l.index <= numLaws)
      && (forall l :: l in laws ==> (l.clone != null <==> CloneRule(l.rule).Some?))
      && (forall l :: l in laws && l.clone != null ==>
            l.clone in laws && l.clone.rule == CloneRule(l.rule).value && l.clone.index == l.index + 1)
      && (forall l :: l in laws ==> (l.unlocked <==> l in unlockedLaws))
      && (forall l :: l in unlockedLaws ==> l in laws)
      && (forall i, j :: 0 <= i < j < |unlockedLaws| ==> unlockedLaws[i] != unlockedLaws[j])
    }

    /** An unlocked law's clone is unlocked too. */
    ghost predicate ClonesFollow()
      reads this, laws
    {
      forall l :: l in laws && l.unlocked && l.clone != null && l.clone in laws ==> l.clone.unlocked
    }

    constructor ()
      ensures Valid() && ClonesFollow()
      ensures unlockedLaws == [] && numLaws == 0 && laws == {}
    {
      unlockedLaws := [];
      numLaws := 0;
      laws := {};
    }

    /** The Law constructor: the next index, locked, and the clone (with the index
        after it) when the clone rule gives one. */
    method NewLaw(name: string, rule: Rule) returns (law: Law)
      requires Valid() && ClonesFollow()
      modifies this
      ensures Valid() && ClonesFollow()
      ensures fresh(law) && law.name == name && law.rule == rule && law.index == old(numLaws) + 1
      ensures !law.unlocked && unlockedLaws == old(unlockedLaws)
      ensures law.clone != null <==> CloneRule(rule).Some?
      ensures law.clone != null ==> fresh(law.clone) && !law.clone.unlocked && law.clone.name == name
      ensures laws == old(laws) + {law} + (if law.clone != null then {law.clone} else {})
      ensures numLaws == old(numLaws) + (if law.clone != null then 2 else 1)
    {
      numLaws := numLaws + 1;
      var index := numLaws;
      var cloneRule := CloneRule(rule);
      if cloneRule.Some? {
        numLaws := numLaws + 1;
        var clone := new Law(name, cloneRule.value, numLaws, null);
        CloneHasNoClone(rule);
        law := new Law(name, rule, index, clone);
        laws := laws + {law, clone};
      } else {
        law := new Law(name, rule, index, null);
        laws := laws + {law};
      }
    }

    /** unlock: nothing happens to a law already unlocked; otherwise the law is
        marked and listed once, and then its clone is unlocked the same way. */
    method Unlock(law: Law)
      requires Valid() && law in laws
      modifies this, law, law.clone
      decreases if law.clone == null then 0 else 1
      ensures Valid() && laws == old(laws) && numLaws == old(numLaws)
      ensures old(law.unlocked) ==> unlockedLaws == old(unlockedLaws)
      ensures !old(law.unlocked) ==>
        unlockedLaws == old(unlockedLaws) + [law]
          + (if law.clone != null && !old(law.clone.unlocked) then [law.clone] else [])
      ensures !old(law.unlocked) ==> law.unlocked && (law.clone != null ==> law.clone.unlocked)
      ensures forall l :: l in laws ==> l.unlocked == (old(l.unlocked) || (!old(law.unlocked) && (l == law || l == law.clone)))
      ensures old(ClonesFollow()) ==> ClonesFollow()
    {
      if law.unlocked {
        return;
      }
      law.unlocked := true;
      unlockedLaws := unlockedLaws + [law];
      if law.clone != null {
        CloneHasNoClone(law.rule);
        Unlock(law.clone);
      }
    }
  }
}

=== FILE: substitution.dfy ===
/** The substitution engine: the two leaf rewrites used by the quantifier rules
    (freeToBound, boundToTerm) and the instantiation of a conclusion template from
    the binding map (subsSentence, subsEnvironment, subs). */
module Substitution {
  import opened Outcomes
  import opened Ast
  import opened Environments

  /** The binding map: placeholder name to the value bound to it. The matcher seeds
      every placeholder of the law with the empty string, its "unbound" mark. */
  type Values = map<string, Item>

  const UNSET: Item := Str("")

  /** The matcher's output object: whether the match still stands, the inferred
      ambient environment, the bindings, and the conclusion once one is built. */
  datatype Output = Output(matches: bool, env: Environment, values: Values, conclusion: Option<Context>)

  // ===== reference definitions: plain leaf substitution =====

  /** Every free-variable leaf named x becomes the bound variable b. */
  function RenameFreeTerm(t: Term, x: string, b: string): Term {
    match t
    case FreeVar(n) => if n == x then BoundVar(b) else t
    case OperatorEval(op, args) => OperatorEval(op, seq(|args|, i requires 0 <= i < |args| => RenameFreeTerm(args[i], x, b)))
    case _ => t
  }

  function RenameFree(s: Sentence, x: string, b: string): Sentence {
    match s
    case Atomic(_) => s
    case PredicateApp(p, args) => PredicateApp(p, seq(|args|, i requires 0 <= i < |args| => RenameFreeTerm(args[i], x, b)))
    case Binary(k, l, r) => Binary(k, RenameFree(l, x, b), RenameFree(r, x, b))
    case Not(a) => Not(RenameFree(a, x, b))
    case True => s
    case False => s
    case ForAll(body, bd) =>
      ForAll(RenameFree(body, x, b), if bd.BinderTerm? then BinderTerm(RenameFreeTerm(bd.term, x, b)) else bd)
    case ThereExists(body, bd) =>
      ThereExists(RenameFree(body, x, b), if bd.BinderTerm? then BinderTerm(RenameFreeTerm(bd.term, x, b)) else bd)
  }

  /** Every bound-variable leaf named X (when X names one) becomes the term u. */
  function ReplaceBoundTerm(t: Term, X: Option<string>, u: Term): Term {
    match t
    case BoundVar(n) => if X == Some(n) then u else t
    case OperatorEval(op, args) => OperatorEval(op, seq(|args|, i requires 0 <= i < |args| => ReplaceBoundTerm(args[i], X, u)))
    case _ => t
  }

  function ReplaceBound(s: Sentence, X: Option<string>, u: Term): Sentence {
    match s
    case Atomic(_) => s
    case PredicateApp(p, args) => PredicateApp(p, seq(|args|, i requires 0 <= i < |args| => ReplaceBoundTerm(args[i], X, u)))
    case Binary(k, l, r) => Binary(k, ReplaceBound(l, X, u), ReplaceBound(r, X, u))
    case Not(a) => Not(ReplaceBound(a, X, u))
    case True => s
    case False => s
    case ForAll(body, bd) =>
      ForAll(ReplaceBound(body, X, u), if bd.BinderTerm? then BinderTerm(ReplaceBoundTerm(bd.term, X, u)) else bd)
    case ThereExists(body, bd) =>
      ThereExists(ReplaceBound(body, X, u), if bd.BinderTerm? then BinderTerm(ReplaceBoundTerm(bd.term, X, u)) else bd)
  }

  /** The nodes the two rewrites of the source cannot rebuild: an operator term
      (its subtype is "operator evaluation", the rewrites test for "operator") and an
      existential (its subtype is "there exists", the rewrites test for
      "there exists " with a trailing space). */
  predicate Unhandled(s: Sentence) {
    match s
    case PredicateApp(_, args) => exists i :: 0 <= i < |args| && args[i].OperatorEval?
    case Binary(_, l, r) => Unhandled(l) || Unhandled(r)
    case Not(a) => Unhandled(a)
    case ForAll(body, bd) => Unhandled(body) || (bd.BinderTerm? && bd.term.OperatorEval?)
    case ThereExists(_, _) => true
    case _ => false
  }

  // ----- variables occurring in a sentence -----

  function FreeVarsTerm(t: Term): set<string> {
    match t
    case FreeVar(n) => {n}
    case OperatorEval(_, args) => set i, n | 0 <= i < |args| && n in FreeVarsTerm(args[i]) :: n
    case _ => {}
  }

  function FreeVarsBinder(bd: Binder): set<string> {
    if bd.BinderTerm? then FreeVarsTerm(bd.term) else {}
  }

  /** The names of the free-variable leaves of a sentence. */
  function FreeVars(s: Sentence): set<string> {
    match s
    case PredicateApp(_, args) => set i, n | 0 <= i < |args| && n in FreeVarsTerm(args[i]) :: n
    case Binary(_, l, r) => FreeVars(l) + FreeVars(r)
    case Not(a) => FreeVars(a)
    case ForAll(body, bd) => FreeVars(body) + FreeVarsBinder(bd)
    case ThereExists(body, bd) => FreeVars(body) + FreeVarsBinder(bd)
    case _ => {}
  }

  function BoundLeavesTerm(t: Term): set<string> {
    match t
    case BoundVar(n) => {n}
    case OperatorEval(_, args) => set i, n | 0 <= i < |args| && n in BoundLeavesTerm(args[i]) :: n
    case _ => {}
  }

  /** The names of the bound-variable leaves (terms, not quantifier slots holding a
      variable) of a sentence. */
  function BoundLeaves(s: Sentence): set<string> {
    match s
    case PredicateApp(_, args) => set i, n | 0 <= i < |args| && n in BoundLeavesTerm(args[i]) :: n
    case Binary(_, l, r) => BoundLeaves(l) + BoundLeaves(r)
    case Not(a) => BoundLeaves(a)
    case ForAll(body, bd) => BoundLeaves(body) + (if bd.BinderTerm? then BoundLeavesTerm(bd.term) else {})
    case ThereExists(body, bd) => BoundLeaves(body) + (if bd.BinderTerm? then BoundLeavesTerm(bd.term) else {})
    case _ => {}
  }

  // ===== freeToBound and boundToTerm, as the source runs them =====

  function FreeToBoundTerm(t: Term, x: string, b: string): Outcome<Term> {
    match t
    case FreeVar(n) => if n != x then Ok(t) else Ok(BoundVar(b))
    case BoundVar(_) => Ok(t)
    case PrimitiveTerm(_) => Ok(t)
    case OperatorEval(_, _) => Thrown(UndefinedOutput)
  }

  function FreeToBoundTerms(args: seq<Term>, x: string, b: string): Outcome<seq<Term>> {
    if |args| == 0 then Ok([])
    else
      var head :- FreeToBoundTerm(args[0], x, b);
      var rest :- FreeToBoundTerms(args[1..], x, b);
      Ok([head] + rest)
  }

  /** freeToBound(statement, freeVariable, boundVariable). A bound variable in a
      quantifier's slot is returned as it is; a term there is rewritten. */
  function FreeToBound(s: Sentence, x: string, b: string): Outcome<Sentence> {
    match s
    case Atomic(_) => Ok(s)
    case PredicateApp(p, args) =>
      var args' :- FreeToBoundTerms(args, x, b);
      Ok(PredicateApp(p, args'))
    case Binary(k, l, r) =>
      var l' :- FreeToBound(l, x, b);
      var r' :- FreeToBound(r, x, b);
      Ok(Binary(k, l', r'))
    case Not(a) =>
      var a' :- FreeToBound(a, x, b);
      Ok(Not(a'))
    case True => Ok(True)
    case False => Ok(False)
    case ForAll(body, bd) =>
      var body' :- FreeToBound(body, x, b);
      if bd.BinderVar? then Ok(ForAll(body', bd))
      else
        var t' :- FreeToBoundTerm(bd.term, x, b);
        Ok(ForAll(body', BinderTerm(t')))
    case ThereExists(_, _) => Thrown(UndefinedOutput)
  }

  function BoundToTermTerm(t: Term, X: Option<string>, u: Term): Outcome<Term> {
    match t
    case FreeVar(_) => Ok(t)
    case BoundVar(n) => if X != Some(n) then Ok(t) else Ok(u)
    case PrimitiveTerm(_) => Ok(t)
    case OperatorEval(_, _) => Thrown(UndefinedOutput)
  }

  function BoundToTermTerms(args: seq<Term>, X: Option<string>, u: Term): Outcome<seq<Term>> {
    if |args| == 0 then Ok([])
    else
      var head :- BoundToTermTerm(args[0], X, u);
      var rest :- BoundToTermTerms(args[1..], X, u);
      Ok([head] + rest)
  }

  /** boundToTerm(statement, boundVariable, term). `X` is None when the quantifier's
      slot held something other than a bound variable: then no leaf is that object. */
  function BoundToTerm(s: Sentence, X: Option<string>, u: Term): Outcome<Sentence> {
    match s
    case Atomic(_) => Ok(s)
    case PredicateApp(p, args) =>
      var args' :- BoundToTermTerms(args, X, u);
      Ok(PredicateApp(p, args'))
    case Binary(k, l, r) =>
      var l' :- BoundToTerm(l, X, u);
      var r' :- BoundToTerm(r, X, u);
      Ok(Binary(k, l', r'))
    case Not(a) =>
      var a' :- BoundToTerm(a, X, u);
      Ok(Not(a'))
    case True => Ok(True)
    case False => Ok(False)
    case ForAll(body, bd) =>
      var body' :- BoundToTerm(body, X, u);
      if bd.BinderVar? then Ok(ForAll(body', bd))
      else
        var t' :- BoundToTermTerm(bd.term, X, u);
        Ok(ForAll(body', BinderTerm(t')))
    case ThereExists(_, _) => Thrown(UndefinedOutput)
  }

  // ----- the rewrites against the reference -----

  lemma {:induction false} FreeToBoundTermsIsRename(args: seq<Term>, x: string, b: string)
    ensures FreeToBoundTerms(args, x, b) ==
      if exists i :: 0 <= i < |args| && args[i].OperatorEval? then Thrown(UndefinedOutput)
      else Ok(seq(|args|, i requires 0 <= i < |args| => RenameFreeTerm(args[i], x, b)))
    decreases |args|
  {
    if |args| > 0 {
      FreeToBoundTermsIsRename(args[1..], x, b);
      OperatorSplit(args);
      if !(exists i :: 0 <= i < |args| && args[i].OperatorEval?) {
        var rest := seq(|args[1..]|, i requires 0 <= i < |args[1..]| => RenameFreeTerm(args[1..][i], x, b));
        var all := seq(|args|, i requires 0 <= i < |args| => RenameFreeTerm(args[i], x, b));
        assert all == [RenameFreeTerm(args[0], x, b)] + rest;
      }
    } else {
      assert seq(|args|, i requires 0 <= i < |args| => RenameFreeTerm(args[i], x, b)) == [];
    }
  }

  lemma OperatorSplit(args: seq<Term>)
    requires |args| > 0
    ensures (exists i :: 0 <= i < |args| && args[i].OperatorEval?) <==>
            args[0].OperatorEval? || (exists i :: 0 <= i < |args[1..]| && args[1..][i].OperatorEval?)
  {
    if exists i :: 0 <= i < |args| && args[i].OperatorEval? {
      var i :| 0 <= i < |args| && args[i].OperatorEval?;
      if i > 0 { assert args[1..][i - 1] == args[i]; }
    }
    if exists i :: 0 <= i < |args[1..]| && args[1..][i].OperatorEval? {
      var i :| 0 <= i < |args[1..]| && args[1..][i].OperatorEval?;
      assert args[i + 1] == args[1..][i];
    }
  }

  /** freeToBound rebuilds the statement with exactly the leaves for x renamed, and
      fails exactly on the nodes it does not recognise. */
  lemma {:induction false} FreeToBoundIsRename(s: Sentence, x: string, b: string)
    ensures FreeToBound(s, x, b) == if Unhandled(s) then Thrown(UndefinedOutput) else Ok(RenameFree(s, x, b))
  {
    match s
    case PredicateApp(p, args) => FreeToBoundTermsIsRename(args, x, b);
    case Binary(k, l, r) => FreeToBoundIsRename(l, x, b); FreeToBoundIsRename(r, x, b);
    case Not(a) => FreeToBoundIsRename(a, x, b);
    case ForAll(body, bd) => FreeToBoundIsRename(body, x, b);
    case _ =>
  }

  lemma {:induction false} BoundToTermTermsIsReplace(args: seq<Term>, X: Option<string>, u: Term)
    ensures BoundToTermTerms(args, X, u) ==
      if exists i :: 0 <= i < |args| && args[i].OperatorEval? then Thrown(UndefinedOutput)
      else Ok(seq(|args|, i requires 0 <= i < |args| => ReplaceBoundTerm(args[i], X, u)))
    decreases |args|
  {
    if |args| > 0 {
      BoundToTermTermsIsReplace(args[1..], X, u);
      OperatorSplit(args);
      if !(exists i :: 0 <= i < |args| && args[i].OperatorEval?) {
        var rest := seq(|args[1..]|, i requires 0 <= i < |args[1..]| => ReplaceBoundTerm(args[1..][i], X, u));
        var all := seq(|args|, i requires 0 <= i < |args| => ReplaceBoundTerm(args[i], X, u));
        assert all == [ReplaceBoundTerm(args[0], X, u)] + rest;
      }
    } else {
      assert seq(|args|, i requires 0 <= i < |args| => ReplaceBoundTerm(args[i], X, u)) == [];
    }
  }

  /** boundToTerm rebuilds the statement with exactly the leaves for X replaced, and
      fails exactly on the nodes it does not recognise. */
  lemma {:induction false} BoundToTermIsReplace(s: Sentence, X: Option<string>, u: Term)
    ensures BoundToTerm(s, X, u) == if Unhandled(s) then Thrown(UndefinedOutput) else Ok(ReplaceBound(s, X, u))
  {
    match s
    case PredicateApp(p, args) => BoundToTermTermsIsReplace(args, X, u);
    case Binary(k, l, r) => BoundToTermIsReplace(l, X, u); BoundToTermIsReplace(r, X, u);
    case Not(a) => BoundToTermIsReplace(a, X, u);
    case ForAll(body, bd) => BoundToTermIsReplace(body, X, u);
    case _ =>
  }

  // ----- properties of the reference rewrites -----

  lemma {:induction false} RenameFreeTermVars(t: Term, x: string, b: string)
    ensures FreeVarsTerm(RenameFreeTerm(t, x, b)) == FreeVarsTerm(t) - {x}
    ensures BoundLeavesTerm(RenameFreeTerm(t, x, b)) == BoundLeavesTerm(t) + (if x in FreeVarsTerm(t) then {b} else {})
  {
    match t
    case OperatorEval(op, args) =>
      var args' := seq(|args|, i requires 0 <= i < |args| => RenameFreeTerm(args[i], x, b));
      forall i | 0 <= i < |args| ensures FreeVarsTerm(args'[i]) == FreeVarsTerm(args[i]) - {x}
        ensures BoundLeavesTerm(args'[i]) == BoundLeavesTerm(args[i]) + (if x in FreeVarsTerm(args[i]) then {b} else {})
      {
        RenameFreeTermVars(args[i], x, b);
      }
      var r := RenameFreeTerm(t, x, b);
      forall n | n in FreeVarsTerm(t) - {x} ensures n in FreeVarsTerm(r) {
        var i :| 0 <= i < |args| && n in FreeVarsTerm(args[i]);
        assert n in FreeVarsTerm(args'[i]);
      }
      forall n | n in BoundLeavesTerm(r)
        ensures n in BoundLeavesTerm(t) + (if x in FreeVarsTerm(t) then {b} else {})
      {
        var i :| 0 <= i < |args| && n in BoundLeavesTerm(args'[i]);
        if n !in BoundLeavesTerm(args[i]) { assert x in FreeVarsTerm(args[i]); }
      }
      forall n | n in BoundLeavesTerm(t) + (if x in FreeVarsTerm(t) then {b} else {})
        ensures n in BoundLeavesTerm(r)
      {
        if n in BoundLeavesTerm(t) {
          var i :| 0 <= i < |args| && n in BoundLeavesTerm(args[i]);
          assert n in BoundLeavesTerm(args'[i]);
        } else {
          var i :| 0 <= i < |args| && x in FreeVarsTerm(args[i]);
          assert n in BoundLeavesTerm(args'[i]);
        }
      }
    case _ =>
  }

  /** After renaming, x no longer occurs free; every other free variable stays, and
      b occurs as a bound leaf exactly where x did. */
  lemma {:induction false} RenameFreeVars(s: Sentence, x: string, b: string)
    ensures FreeVars(RenameFree(s, x, b)) == FreeVars(s) - {x}
    ensures BoundLeaves(RenameFree(s, x, b)) == BoundLeaves(s) + (if x in FreeVars(s) then {b} else {})
  {
    match s
    case PredicateApp(p, args) =>
      // the argument list behaves exactly as an operator term's
      RenameFreeTermVars(OperatorEval(Operator("", 0, false), args), x, b);
    case Binary(k, l, r) => RenameFreeVars(l, x, b); RenameFreeVars(r, x, b);
    case Not(a) => RenameFreeVars(a, x, b);
    case ForAll(body, bd) =>
      RenameFreeVars(body, x, b);
      if bd.BinderTerm? { RenameFreeTermVars(bd.term, x, b); }
    case ThereExists(body, bd) =>
      RenameFreeVars(body, x, b);
      if bd.BinderTerm? { RenameFreeTermVars(bd.term, x, b); }
    case _ =>
  }

  lemma {:induction false} RenameFreeTermRoundTrip(t: Term, x: string, b: string)
    requires b !in BoundLeavesTerm(t)
    ensures ReplaceBoundTerm(RenameFreeTerm(t, x, b), Some(b), FreeVar(x)) == t
  {
    match t
    case OperatorEval(op, args) =>
      var back := ReplaceBoundTerm(RenameFreeTerm(t, x, b), Some(b), FreeVar(x));
      forall i | 0 <= i < |args| ensures back.args[i] == args[i] {
        RenameFreeTermRoundTrip(args[i], x, b);
      }
    case _ =>
  }

  /** Renaming x to a bound name b that does not occur as a leaf is undone by
      replacing b with x again: only the leaves for x were touched, and every other
      leaf and every connective and quantifier is as it was. */
  lemma {:induction false} RenameFreeRoundTrip(s: Sentence, x: string, b: string)
    requires b !in BoundLeaves(s)
    ensures ReplaceBound(RenameFree(s, x, b), Some(b), FreeVar(x)) == s
  {
    match s
    case PredicateApp(p, args) =>
      var back := ReplaceBound(RenameFree(s, x, b), Some(b), FreeVar(x));
      forall i | 0 <= i < |args| ensures back.args[i] == args[i] {
        RenameFreeTermRoundTrip(args[i], x, b);
      }
    case Binary(k, l, r) => RenameFreeRoundTrip(l, x, b); RenameFreeRoundTrip(r, x, b);
    case Not(a) => RenameFreeRoundTrip(a, x, b);
    case ForAll(body, bd) =>
      RenameFreeRoundTrip(body, x, b);
      if bd.BinderTerm? { RenameFreeTermRoundTrip(bd.term, x, b); }
    case ThereExists(body, bd) =>
      RenameFreeRoundTrip(body, x, b);
      if bd.BinderTerm? { RenameFreeTermRoundTrip(bd.term, x, b); }
    case _ =>
  }

  /** Renaming touches only variable leaves, so it neither creates nor removes the
      nodes the source's rewrites cannot rebuild. */
  lemma {:induction false} RenameFreeHandled(s: Sentence, x: string, b: string)
    ensures Unhandled(RenameFree(s, x, b)) == Unhandled(s)
  {
    match s
    case PredicateApp(p, args) =>
      var args' := RenameFree(s, x, b).args;
      forall i | 0 <= i < |args| ensures args'[i].OperatorEval? == args[i].OperatorEval? {
        assert args'[i] == RenameFreeTerm(args[i], x, b);
      }
      if Unhandled(s) {
        var i :| 0 <= i < |args| && args[i].OperatorEval?;
        assert args'[i].OperatorEval?;
      }
    case Binary(k, l, r) => RenameFreeHandled(l, x, b); RenameFreeHandled(r, x, b);
    case Not(a) => RenameFreeHandled(a, x, b);
    case ForAll(body, bd) => RenameFreeHandled(body, x, b);
    case _ =>
  }

  lemma {:induction false} ReplaceBoundTermVars(t: Term, X: Option<string>, u: Term)
    ensures FreeVarsTerm(ReplaceBoundTerm(t, X, u)) <= FreeVarsTerm(t) + FreeVarsTerm(u)
    ensures X.Some? && X.value in BoundLeavesTerm(t) ==> FreeVarsTerm(u) <= FreeVarsTerm(ReplaceBoundTerm(t, X, u))
  {
    match t
    case OperatorEval(op, args) =>
      var args' := seq(|args|, i requires 0 <= i < |args| => ReplaceBoundTerm(args[i], X, u));
      forall i | 0 <= i < |args|
        ensures FreeVarsTerm(args'[i]) <= FreeVarsTerm(args[i]) + FreeVarsTerm(u)
        ensures X.Some? && X.value in BoundLeavesTerm(args[i]) ==> FreeVarsTerm(u) <= FreeVarsTerm(args'[i])
      {
        ReplaceBoundTermVars(args[i], X, u);
      }
    case _ =>
  }

  /** Specialising brings in the free variables of the term where the bound
      variable occurred, and no others. */
  lemma {:induction false} ReplaceBoundVars(s: Sentence, X: Option<string>, u: Term)
    ensures FreeVars(ReplaceBound(s, X, u)) <= FreeVars(s) + FreeVarsTerm(u)
    ensures X.Some? && X.value in BoundLeaves(s) ==> FreeVarsTerm(u) <= FreeVars(ReplaceBound(s, X, u))
  {
    match s
    case PredicateApp(p, args) =>
      var args' := seq(|args|, i requires 0 <= i < |args| => ReplaceBoundTerm(args[i], X, u));
      forall i | 0 <= i < |args|
        ensures FreeVarsTerm(args'[i]) <= FreeVarsTerm(args[i]) + FreeVarsTerm(u)
        ensures X.Some? && X.value in BoundLeavesTerm(args[i]) ==> FreeVarsTerm(u) <= FreeVarsTerm(args'[i])
      {
        ReplaceBoundTermVars(args[i], X, u);
      }
    case Binary(k, l, r) => ReplaceBoundVars(l, X, u); ReplaceBoundVars(r, X, u);
    case Not(a) => ReplaceBoundVars(a, X, u);
    case ForAll(body, bd) =>
      ReplaceBoundVars(body, X, u);
      if bd.BinderTerm? { ReplaceBoundTermVars(bd.term, X, u); }
    case ThereExists(body, bd) =>
      ReplaceBoundVars(body, X, u);
      if bd.BinderTerm? { ReplaceBoundTermVars(bd.term, X, u); }
    case _ =>
  }

  // ===== instantiating a conclusion template =====

  /** The term subsSentence makes for a quantifier's slot: the bound value converted
      by toTerm (the unbound mark, an empty string, becomes an empty primitive term).
      For a term in the slot only a free-variable term is looked up: the test meant
      for bound-variable terms compares the type, not the subtype, with
      "bound variable", so such a template yields nothing. */
  function SubsBinder(bd: Binder, values: Values): Outcome<Term> {
    match bd
    case BinderVar(n) => if n in values then ToTerm(values[n]) else Thrown(TypeMismatch)
    case BinderTerm(FreeVar(n)) => if n in values then ToTerm(values[n]) else Thrown(TypeMismatch)
    case BinderTerm(PrimitiveTerm(_)) => Thrown(Unsupported)
    case BinderTerm(_) => Thrown(TypeMismatch)
  }

  /** subsSentence: placeholders resolve from the binding map, connectives and
      quantifiers are rebuilt around the substituted children. Predicate templates
      are refused. A placeholder that is unbound or bound to a non-sentence has no
      sentence to stand for. */
  function SubsSentence(t: Sentence, values: Values): Outcome<Sentence> {
    match t
    case Atomic(n) => if n in values && values[n].SentenceItem? then Ok(values[n].sentence) else Thrown(TypeMismatch)
    case PredicateApp(_, _) => Thrown(Unsupported)
    case ForAll(body, bd) =>
      var body' :- SubsSentence(body, values);
      var u :- SubsBinder(bd, values);
      Ok(ForAll(body', BinderTerm(u)))
    case ThereExists(body, bd) =>
      var body' :- SubsSentence(body, values);
      var u :- SubsBinder(bd, values);
      Ok(ThereExists(body', BinderTerm(u)))
    case True => Ok(True)
    case False => Ok(False)
    case Not(a) =>
      var a' :- SubsSentence(a, values);
      Ok(Not(a'))
    case Binary(k, l, r) =>
      var l' :- SubsSentence(l, values);
      var r' :- SubsSentence(r, values);
      Ok(Binary(k, l', r'))
  }

  /** The frames one template frame contributes: an "assuming" frame its
      instantiated sentence, a "letting" frame the binding of its variable converted
      by toAssumption, a "setting" frame nothing (the source has no code for it). */
  function SubsFrame(a: Assumption, values: Values): Outcome<Environment> {
    match a
    case Assuming(s) =>
      var s' :- SubsSentence(s, values);
      Ok([Assuming(s')])
    case Letting(v) =>
      if v !in values then Thrown(TypeMismatch)
      else
        var frame :- ToAssumption(values[v]);
        Ok([frame])
    case Setting(_, _) => Ok([])
  }

  function SubsFrames(env: Environment, values: Values): Outcome<Environment> {
    if |env| == 0 then Ok([])
    else
      var head :- SubsFrame(env[0], values);
      var rest :- SubsFrames(env[1..], values);
      Ok(head + rest)
  }

  /** subsEnvironment: the instantiated frames after the ambient environment. */
  function SubsEnvironment(env: Environment, output: Output): Outcome<Environment> {
    var frames :- SubsFrames(env, output.values);
    Ok(output.env + frames)
  }

  lemma {:induction false} SubsFramesSnoc(env: Environment, values: Values)
    requires |env| > 0
    ensures SubsFrames(env, values) ==
      match SubsFrames(env[..|env| - 1], values)
      case Thrown(f) => Thrown(f)
      case Ok(init) =>
        match SubsFrame(env[|env| - 1], values)
        case Thrown(f) => Thrown(f)
        case Ok(last) => Ok(init + last)
    decreases |env|
  {
    if |env| == 1 {
      assert env[..0] == [];
      assert env[1..] == [];
      assert SubsFrames(env[1..], values) == Ok([]);
      if SubsFrame(env[0], values).Ok? {
        var last := SubsFrame(env[0], values).value;
        assert last + [] == last && [] + last == last;
      }
    } else {
      SubsFramesSnoc(env[1..], values);
      assert env[1..][..|env| - 2] == env[..|env| - 1][1..];
      assert env[..|env| - 1][0] == env[0];
      var h := SubsFrame(env[0], values);
      var m := SubsFrames(env[1..|env| - 1], values);
      var l := SubsFrame(env[|env| - 1], values);
      if h.Ok? && m.Ok? && l.Ok? {
        assert h.value + (m.value + l.value) == (h.value + m.value) + l.value;
      }
    }
  }

  /** subsEnvironment as the source runs it: start from the ambient environment and
      push one instantiated frame per template frame. */
  method SubsEnvironmentLoop(env: Environment, output: Output) returns (r: Outcome<Environment>)
    ensures r == SubsEnvironment(env, output)
  {
    var list := output.env;
    var i := 0;
    while i < |env|
      invariant 0 <= i <= |env|
      invariant SubsFrames(env[..i], output.values).Ok?
      invariant list == output.env + SubsFrames(env[..i], output.values).value
    {
      SubsFramesSnoc(env[..i + 1], output.values);
      assert env[..i + 1][..i] == env[..i];
      var frame := SubsFrame(env[i], output.values);
      if frame.Thrown? {
        assert SubsFrames(env[..i + 1], output.values).Thrown?;
        SubsFramesPrefixThrown(env, i + 1, output.values);
        return Thrown(frame.fault);
      }
      list := list + frame.value;
      i := i + 1;
    }
    assert env[..i] == env;
    r := Ok(list);
  }

  /** Once a prefix of the frames fails, so does the whole list. */
  lemma {:induction false} SubsFramesPrefixThrown(env: Environment, k: nat, values: Values)
    requires 0 < k <= |env|
    requires SubsFrames(env[..k], values).Thrown?
    ensures SubsFrames(env, values).Thrown?
    ensures SubsFrames(env, values).fault == SubsFrames(env[..k], values).fault
    decreases |env| - k
  {
    if k < |env| {
      SubsFramesSnoc(env[..k + 1], values);
      assert env[..k + 1][..k] == env[..k];
      SubsFramesPrefixThrown(env, k + 1, values);
    } else {
      assert env[..k] == env;
    }
  }

  /** subs: instantiate a formula, environment or sentence-in-environment template;
      a term-context template is not recognised. */
  function Subs(template: Context, output: Output): Outcome<Context> {
    match template
    case Formula(s) =>
      var s' :- SubsSentence(s, output.values);
      Ok(Formula(s'))
    case EnvironmentContext(env) =>
      var env' :- SubsEnvironment(env, output);
      Ok(EnvironmentContext(env'))
    case SentenceInEnv(s, env) =>
      var s' :- SubsSentence(s, output.values);
      var env' :- SubsEnvironment(env, output);
      Ok(SentenceInEnv(s', env'))
    case TermContext(_) => Thrown(TypeMismatch)
  }

  // ----- what an instance of a template is -----

  predicate BinderInstantiated(bd: Binder, values: Values, r: Binder) {
    r.BinderTerm? &&
    match bd
    case BinderVar(n) => n in values && ToTerm(values[n]) == Ok(r.term)
    case BinderTerm(t) => t.FreeVar? && t.free in values && ToTerm(values[t.free]) == Ok(r.term)
  }

  /** r is the template t with each placeholder replaced by the sentence bound to it
      and every connective and quantifier kept. */
  predicate Instantiated(t: Sentence, values: Values, r: Sentence) {
    match t
    case Atomic(n) => n in values && values[n] == SentenceItem(r)
    case PredicateApp(_, _) => false
    case Binary(k, a, b) => r.Binary? && r.kind == k && Instantiated(a, values, r.left) && Instantiated(b, values, r.right)
    case Not(a) => r.Not? && Instantiated(a, values, r.arg)
    case True => r == True
    case False => r == False
    case ForAll(body, bd) => r.ForAll? && Instantiated(body, values, r.body) && BinderInstantiated(bd, values, r.binder)
    case ThereExists(body, bd) => r.ThereExists? && Instantiated(body, values, r.body) && BinderInstantiated(bd, values, r.binder)
  }

  /** subsSentence succeeds with r exactly when r is an instance of the template. */
  lemma {:induction false} SubsSentenceInstantiates(t: Sentence, values: Values, r: Sentence)
    ensures SubsSentence(t, values) == Ok(r) <==> Instantiated(t, values, r)
  {
    match t
    case Binary(k, a, b) =>
      if r.Binary? {
        SubsSentenceInstantiates(a, values, r.left);
        SubsSentenceInstantiates(b, values, r.right);
      }
    case Not(a) =>
      if r.Not? { SubsSentenceInstantiates(a, values, r.arg); }
    case ForAll(body, bd) =>
      if r.ForAll? { SubsSentenceInstantiates(body, values, r.body); }
    case ThereExists(body, bd) =>
      if r.ThereExists? { SubsSentenceInstantiates(body, values, r.body); }
    case _ =>
  }

  /** The frames an environment template contributes: one per "assuming" and
      "letting" frame, in order, none for a "setting" frame. */
  predicate FramesInstantiated(env: Environment, values: Values, r: Environment)
    decreases |env|
  {
    if |env| == 0 then r == []
    else match env[0]
      case Setting(_, _) => FramesInstantiated(env[1..], values, r)
      case Assuming(s) => |r| > 0 && r[0].Assuming? && Instantiated(s, values, r[0].sentence) && FramesInstantiated(env[1..], values, r[1..])
      case Letting(v) => |r| > 0 && v in values && ToAssumption(values[v]) == Ok(r[0]) && FramesInstantiated(env[1..], values, r[1..])
  }

  lemma {:induction false} SubsFramesInstantiate(env: Environment, values: Values)
    requires SubsFrames(env, values).Ok?
    ensures FramesInstantiated(env, values, SubsFrames(env, values).value)
    decreases |env|
  {
    if |env| > 0 {
      SubsFramesInstantiate(env[1..], values);
      var r := SubsFrames(env, values).value;
      var head := SubsFrame(env[0], values).value;
      assert r[|head|..] == SubsFrames(env[1..], values).value;
      if env[0].Assuming? {
        SubsSentenceInstantiates(env[0].sentence, values, r[0].sentence);
      }
    }
  }

  /** subs keeps the kind of context; the conclusion's environment is the ambient
      environment followed by the instantiated template frames, and its sentence is
      an instance of the template's. */
  lemma SubsShape(template: Context, output: Output)
    requires Subs(template, output).Ok?
    ensures var c := Subs(template, output).value;
      && (c.Formula? <==> template.Formula?)
      && (c.EnvironmentContext? <==> template.EnvironmentContext?)
      && (c.SentenceInEnv? <==> template.SentenceInEnv?)
      && !c.TermContext?
      && (CarriesEnvironment(c) ==>
            |output.env| <= |c.env| && c.env[..|output.env|] == output.env
            && FramesInstantiated(template.env, output.values, c.env[|output.env|..]))
      && (c.Formula? || c.SentenceInEnv? ==> Instantiated(template.sentence, output.values, c.sentence))
  {
    var c := Subs(template, output).value;
    if CarriesEnvironment(template) {
      SubsFramesInstantiate(template.env, output.values);
      assert c.env[|output.env|..] == SubsFrames(template.env, output.values).value;
    }
    if template.Formula? || template.SentenceInEnv? {
      SubsSentenceInstantiates(template.sentence, output.values, c.sentence);
    }
  }
}

=== FILE: workspace.dfy ===
/** The proof bookkeeping of the trainer: listing the deductions the unlocked laws
    allow from a selection, carrying out one of them (the proof line, the star that
    marks a law at or after the current exercise, the victory check, the stored
    record), undoing the last deduction, and picking the name of a new variable.
    The boxes drawn on the board, the messages and the rendering of the lines are
    not part of this model. */
module Workspace {
  import opened Outcomes
  import opened Ast
  import opened Environments
  import opened Primitives
  import opened Substitution
  import opened Legality
  import opened Matcher
  import opened Registry

  // ----- the state of the panes -----

  /** A line of the proof: a deduction, or the victory line ("QED!", or
      "QED! (again)" when the exercise had been solved before). */
  datatype ProofLine =
    | Step(from: seq<Context>, conclusion: Context, law: string, starred: bool)
    | Qed(again: bool)

  /** The proof list with its line counter and its circularity flag. */
  datatype ProofPane = ProofPane(lines: seq<ProofLine>, numlines: nat, hasCircularity: bool)

  /** The undo button: whether undo is allowed, the counter and flag to rewind to,
      and how many proof lines the last deduction appended. */
  datatype UndoButton = UndoButton(canUndo: bool, numlines: nat, hasCircularity: bool, deletedLines: nat)

  /** One offered deduction: what it concludes, from which justifications (in the
      order the law consumed them), by which law, and whether the law is starred. */
  datatype Entry = Entry(conclusion: Context, justification: seq<Context>, law: string, starred: bool)

  /** The list of available deductions and its circularity flag. */
  datatype DeductionsPane = DeductionsPane(entries: seq<Entry>, hasCircularity: bool)

  /** A law is starred when there is an exercise and the law was created at or
      after the exercise's own law. */
  predicate Starred(index: nat, exerciseIndex: Option<nat>) {
    exerciseIndex.Some? && index >= exerciseIndex.value
  }

  predicate AnyStarred(entries: seq<Entry>) {
    exists k :: 0 <= k < |entries| && entries[k].starred
  }

  // ----- which deductions a selection offers -----

  /** The placeholders makeMatches hands to the matcher: every kind of name in the
      law, in order of first occurrence. */
  function Placeholders(rule: Rule): seq<string> {
    AddNew([], ContextsNames(rule.givens + [rule.conclusion], ALL_KINDS))
  }

  /** The justification as selected and, for exactly two, also reversed. */
  function Orders(justification: seq<Context>): seq<seq<Context>> {
    if |justification| == 2 then [justification, [justification[1], justification[0]]]
    else [justification]
  }

  /** The law matches the arguments and concludes `c`. */
  predicate Offers(law: Law, args: seq<Context>, c: Context) {
    var m := MatchWithGivens(args, law.rule, Placeholders(law.rule));
    m.Ok? && m.value.matches && m.value.conclusion == Some(c)
  }

  /** One call of matchWithGivens: no entry, one entry, or the exception. */
  function Attempt(law: Law, args: seq<Context>, ex: Option<nat>): Outcome<seq<Entry>> {
    var m :- MatchWithGivens(args, law.rule, Placeholders(law.rule));
    if !m.matches then Ok([])
    else
      MatchSound(args, law.rule, Placeholders(law.rule));
      Ok([Entry(m.conclusion.value, args, law.name, Starred(law.index, ex))])
  }

  /** The body of makeMatches' loop for one law. */
  function TryLaw(law: Law, justification: seq<Context>, ex: Option<nat>): Outcome<seq<Entry>> {
    var first :- Attempt(law, justification, ex);
    if |justification| == 2 then
      var second :- Attempt(law, [justification[1], justification[0]], ex);
      Ok(first + second)
    else Ok(first)
  }

  /** What each unlocked law contributes, in the order the laws were unlocked. */
  function Results(laws: seq<Law>, justification: seq<Context>, ex: Option<nat>): seq<Outcome<seq<Entry>>> {
    seq(|laws|, k requires 0 <= k < |laws| => TryLaw(laws[k], justification, ex))
  }

  /** The contributions one after the other; the first exception ends the scan. */
  function Collect(results: seq<Outcome<seq<Entry>>>): Outcome<seq<Entry>>
    decreases |results|
  {
    if |results| == 0 then Ok([])
    else
      var before :- Collect(results[..|results| - 1]);
      var last :- results[|results| - 1];
      Ok(before + last)
  }

  /** The entries makeMatches lists. */
  function Scan(laws: seq<Law>, justification: seq<Context>, ex: Option<nat>): Outcome<seq<Entry>> {
    Collect(Results(laws, justification, ex))
  }

  /** What a law has listed when its contribution faults: the first order's entry
      when only the reversed order faults, nothing otherwise. */
  function ListedBeforeFault(law: Law, justification: seq<Context>, ex: Option<nat>): seq<Entry> {
    var first := Attempt(law, justification, ex);
    if first.Ok? then first.value else []
  }

  /** A scan that gets through lists exactly the entries of every contribution, each
      in its place. */
  lemma {:induction false} CollectSound(results: seq<Outcome<seq<Entry>>>)
    requires Collect(results).Ok?
    ensures forall k :: 0 <= k < |results| ==> results[k].Ok?
    ensures forall e :: e in Collect(results).value ==>
      exists k :: 0 <= k < |results| && results[k].Ok? && e in results[k].value
    ensures forall k, e :: 0 <= k < |results| && results[k].Ok? && e in results[k].value ==>
      e in Collect(results).value
    decreases |results|
  {
    if |results| > 0 {
      var n := |results| - 1;
      var prefix := results[..n];
      CollectSound(prefix);
      forall k | 0 <= k < n ensures prefix[k] == results[k] { }
      forall e | e in Collect(results).value
        ensures exists k :: 0 <= k < |results| && results[k].Ok? && e in results[k].value
      {
        if e in Collect(prefix).value {
          var k :| 0 <= k < n && prefix[k].Ok? && e in prefix[k].value;
          assert results[k] == prefix[k];
        } else {
          assert e in results[n].value;
        }
      }
    }
  }

  lemma CollectStep(results: seq<Outcome<seq<Entry>>>, i: nat)
    requires i < |results| && Collect(results[..i]).Ok?
    ensures Collect(results[..i + 1]) == (var last :- results[i]; Ok(Collect(results[..i]).value + last))
  {
    assert results[..i + 1][..i] == results[..i];
  }

  /** Once a prefix of the contributions throws, the whole scan throws the same way. */
  lemma {:induction false} CollectPrefixThrown(results: seq<Outcome<seq<Entry>>>, k: nat)
    requires k <= |results| && Collect(results[..k]).Thrown?
    ensures Collect(results) == Collect(results[..k])
    decreases |results| - k
  {
    if k < |results| {
      assert results[..k + 1][..k] == results[..k];
      CollectPrefixThrown(results, k + 1);
    } else {
      assert results[..k] == results;
    }
  }

  /** An entry is justified by one of the listed laws, in one of the two orders,
      with the law's star. */
  predicate Reported(e: Entry, laws: seq<Law>, justification: seq<Context>, ex: Option<nat>) {
    && e.justification in Orders(justification)
    && exists i :: 0 <= i < |laws| && laws[i].name == e.law && e.starred == Starred(laws[i].index, ex)
         && Offers(laws[i], e.justification, e.conclusion)
  }

  lemma AttemptSound(law: Law, args: seq<Context>, ex: Option<nat>)
    requires Attempt(law, args, ex).Ok?
    ensures |Attempt(law, args, ex).value| <= 1
    ensures forall e :: e in Attempt(law, args, ex).value ==>
      e.justification == args && e.law == law.name && e.starred == Starred(law.index, ex)
      && Offers(law, args, e.conclusion) && ContextAdmissible(e.conclusion)
  {
    var m := MatchWithGivens(args, law.rule, Placeholders(law.rule));
    if m.value.matches {
      MatchSound(args, law.rule, Placeholders(law.rule));
    }
  }

  /** Attempt in terms of what matchWithGivens returned. */
  lemma AttemptFrom(law: Law, args: seq<Context>, ex: Option<nat>, m: Outcome<Output>)
    requires m == MatchWithGivens(args, law.rule, Placeholders(law.rule))
    ensures m.Thrown? ==> Attempt(law, args, ex) == Thrown(m.fault)
    ensures m.Ok? && !m.value.matches ==> Attempt(law, args, ex) == Ok([])
    ensures m.Ok? && m.value.matches ==> m.value.conclusion.Some?
    ensures m.Ok? && m.value.matches ==>
      Attempt(law, args, ex) == Ok([Entry(m.value.conclusion.value, args, law.name, Starred(law.index, ex))])
  {
    if m.Ok? && m.value.matches {
      MatchSound(args, law.rule, Placeholders(law.rule));
    }
  }

  /** Each entry a law contributes is one of its matches, in one of the two orders,
      with the law's star and an admissible conclusion. */
  lemma TryLawSound(law: Law, justification: seq<Context>, ex: Option<nat>)
    requires TryLaw(law, justification, ex).Ok?
    ensures forall e :: e in TryLaw(law, justification, ex).value ==>
      && e.justification in Orders(justification) && e.law == law.name && e.starred == Starred(law.index, ex)
      && Offers(law, e.justification, e.conclusion) && ContextAdmissible(e.conclusion)
  {
    AttemptSound(law, justification, ex);
    if |justification| == 2 {
      AttemptSound(law, [justification[1], justification[0]], ex);
    }
  }

  lemma TryLawComplete(law: Law, justification: seq<Context>, ex: Option<nat>, args: seq<Context>, c: Context)
    requires TryLaw(law, justification, ex).Ok?
    requires args in Orders(justification) && Offers(law, args, c)
    ensures Entry(c, args, law.name, Starred(law.index, ex)) in TryLaw(law, justification, ex).value
  {
    AttemptFrom(law, args, ex, MatchWithGivens(args, law.rule, Placeholders(law.rule)));
  }

  /** Every listed deduction comes from an unlocked law that matches the selection
      (as given, or reversed when two are selected), carries that law's star, and
      concludes something isLegal accepts. */
  lemma ScanSound(laws: seq<Law>, justification: seq<Context>, ex: Option<nat>)
    requires Scan(laws, justification, ex).Ok?
    ensures forall e :: e in Scan(laws, justification, ex).value ==>
      Reported(e, laws, justification, ex) && ContextAdmissible(e.conclusion)
  {
    var results := Results(laws, justification, ex);
    CollectSound(results);
    forall e | e in Collect(results).value
      ensures Reported(e, laws, justification, ex) && ContextAdmissible(e.conclusion)
    {
      var k :| 0 <= k < |results| && results[k].Ok? && e in results[k].value;
      TryLawSound(laws[k], justification, ex);
    }
  }

  /** Every law that matches the selection (in either order when two are selected)
      has its deduction listed. */
  lemma ScanComplete(laws: seq<Law>, justification: seq<Context>, ex: Option<nat>,
                     i: nat, args: seq<Context>, c: Context)
    requires Scan(laws, justification, ex).Ok?
    requires i < |laws| && args in Orders(justification) && Offers(laws[i], args, c)
    ensures Entry(c, args, laws[i].name, Starred(laws[i].index, ex)) in Scan(laws, justification, ex).value
  {
    var results := Results(laws, justification, ex);
    CollectSound(results);
    assert results[i] == TryLaw(laws[i], justification, ex);
    TryLawComplete(laws[i], justification, ex, args, c);
  }

  lemma AnyStarredAppend(a: seq<Entry>, b: seq<Entry>)
    ensures AnyStarred(a + b) <==> AnyStarred(a) || AnyStarred(b)
  {
    if AnyStarred(b) {
      var k :| 0 <= k < |b| && b[k].starred;
      assert (a + b)[|a| + k] == b[k];
    }
    if AnyStarred(a) {
      var k :| 0 <= k < |a| && a[k].starred;
      assert (a + b)[k] == a[k];
    }
    if AnyStarred(a + b) {
      var k :| 0 <= k < |a + b| && (a + b)[k].starred;
      if k >= |a| {
        assert b[k - |a|] == (a + b)[k];
      }
    }
  }

  // ----- deductions -----

  /** The sentences among the justifications (the "From" part of a proof line). */
  function JustificationSentences(justification: seq<Context>): (r: seq<Context>)
    ensures |r| <= |justification|
    ensures forall c :: c in r <==> c in justification && c.SentenceInEnv?
  {
    if |justification| == 0 then []
    else
      (if justification[0].SentenceInEnv? then [justification[0]] else [])
        + JustificationSentences(justification[1..])
  }

  /** The conclusion has the same name as the exercise's conclusion. */
  predicate Solves(conclusion: Context, exercise: Exercise?) {
    exercise != null && ContextName(conclusion) == ContextName(exercise.law.rule.conclusion)
  }

  /** The stored line count of an exercise after a non-circular proof of `len`
      lines: written when there is none yet or the old one is longer. */
  function RecordAfter(records: map<string, nat>, name: string, len: nat): (r: map<string, nat>)
    ensures r.Keys == records.Keys + {name}
    ensures name in records ==> r[name] <= records[name] && r[name] <= len
    ensures name in records ==> (r[name] == records[name] || r[name] == len)
    ensures name !in records ==> r[name] == len
    ensures forall k :: k in records && k != name ==> r[k] == records[k]
  {
    if name !in records || records[name] > len then records[name := len] else records
  }

  class Exercise {
    const name: string
    const law: Law
    /** Whether the exercise has been solved (the exercise button's flag). */
    var solved: bool
    var personalBest: int

    /** An exercise whose law is named after it unless a law name is given; the
        law is registered like any other. */
    constructor (exerciseName: string, lawName: string, rule: Rule, registry: Registry)
      requires registry.Valid() && registry.ClonesFollow()
      modifies registry
      ensures name == exerciseName && law.rule == rule
      ensures law.name == (if lawName == "" then exerciseName else lawName)
      ensures registry.Valid() && registry.ClonesFollow() && law in registry.laws && !law.unlocked
      ensures registry.unlockedLaws == old(registry.unlockedLaws)
      ensures law.index == old(registry.numLaws) + 1
      ensures law.clone != null <==> CloneRule(rule).Some?
      ensures law.clone != null ==>
        law.clone in registry.laws && !law.clone.unlocked && law.clone.index == law.index + 1
      ensures registry.laws == old(registry.laws) + {law} + (if law.clone != null then {law.clone} else {})
      ensures registry.numLaws == old(registry.numLaws) + (if law.clone != null then 2 else 1)
      ensures !solved && personalBest == 1000
    {
      name := exerciseName;
      var l := registry.NewLaw(if lawName == "" then exerciseName else lawName, rule);
      law := l;
      solved := false;
      personalBest := 1000;
    }
  }

  class Workspace {
    var proof: ProofPane
    var undo: UndoButton
    var deductions: DeductionsPane
    /** The current exercise, if one is set. */
    var exercise: Exercise?
    /** The stored best line counts, by exercise name. */
    var records: map<string, nat>

    /** The counter counts the lines, and an allowed undo rewinds exactly the lines
        the last deduction appended. */
    ghost predicate Valid()
      reads this
    {
      && proof.numlines == |proof.lines|
      && (undo.canUndo ==> undo.deletedLines <= |proof.lines| && undo.numlines == |proof.lines| - undo.deletedLines)
    }

    function ExerciseIndex(): Option<nat>
      reads this
    {
      if exercise == null then None else Some(exercise.law.index)
    }

    /** A fresh exercise box: no proof lines, nothing to undo, no deductions. */
    constructor (exercise: Exercise?, records: map<string, nat>)
      ensures Valid()
      ensures this.exercise == exercise && this.records == records
      ensures proof == ProofPane([], 0, false) && !undo.canUndo && deductions.entries == []
    {
      proof := ProofPane([], 0, false);
      undo := UndoButton(false, 0, false, 0);
      deductions := DeductionsPane([], false);
      this.exercise := exercise;
      this.records := records;
    }

    /** appendToDeductions: the entry is listed, starred (and the list flagged)
        when its law is at or after the exercise's law. */
    method AppendToDeductions(conclusion: Context, justification: seq<Context>, law: Law)
      modifies this
      ensures deductions.entries == old(deductions.entries)
        + [Entry(conclusion, justification, law.name, Starred(law.index, ExerciseIndex()))]
      ensures deductions.hasCircularity == (old(deductions.hasCircularity) || Starred(law.index, ExerciseIndex()))
      ensures proof == old(proof) && undo == old(undo) && exercise == old(exercise) && records == old(records)
    {
      var starred := exercise != null && law.index >= exercise.law.index;
      deductions := DeductionsPane(deductions.entries + [Entry(conclusion, justification, law.name, starred)],
                                   deductions.hasCircularity || starred);
    }

    /** One order of the selection tried against the law; a match is listed. */
    method TryOrder(law: Law, args: seq<Context>) returns (r: Outcome<nat>)
      modifies this
      ensures r == (var es :- Attempt(law, args, ExerciseIndex()); Ok(|es|))
      ensures r.Ok? ==> deductions.entries == old(deductions.entries) + Attempt(law, args, ExerciseIndex()).value
      ensures r.Ok? ==>
        deductions.hasCircularity == (old(deductions.hasCircularity) || AnyStarred(Attempt(law, args, ExerciseIndex()).value))
      ensures r.Thrown? ==> deductions == old(deductions)
      ensures proof == old(proof) && undo == old(undo) && exercise == old(exercise) && records == old(records)
    {
      ghost var ex := ExerciseIndex();
      var primitives := ListPrimitives(law.rule.givens, law.rule.conclusion, ALL_KINDS);
      var output := MatchGivens(args, law.rule, primitives);
      AttemptFrom(law, args, ex, output);
      if output.Thrown? {
        return Thrown(output.fault);
      }
      if output.value.matches {
        AppendToDeductions(output.value.conclusion.value, args, law);
        ghost var found := Attempt(law, args, ex).value;
        assert found[0].starred == Starred(law.index, ex);
        assert AnyStarred(found) <==> Starred(law.index, ex);
        r := Ok(1);
      } else {
        r := Ok(0);
      }
    }

    /** The body of makeMatches' loop: the law is tried on the selection and, for
        exactly two, on the reversed pair; each success is listed. */
    method TryUnlockedLaw(law: Law, justification: seq<Context>) returns (r: Outcome<nat>)
      modifies this
      ensures r == (var es :- TryLaw(law, justification, ExerciseIndex()); Ok(|es|))
      ensures r.Ok? ==> deductions.entries == old(deductions.entries) + TryLaw(law, justification, ExerciseIndex()).value
      ensures r.Ok? ==>
        deductions.hasCircularity == (old(deductions.hasCircularity) || AnyStarred(TryLaw(law, justification, ExerciseIndex()).value))
      ensures r.Thrown? ==>
        && deductions.entries == old(deductions.entries) + ListedBeforeFault(law, justification, ExerciseIndex())
        && deductions.hasCircularity
           == (old(deductions.hasCircularity) || AnyStarred(ListedBeforeFault(law, justification, ExerciseIndex())))
      ensures proof == old(proof) && undo == old(undo) && exercise == old(exercise) && records == old(records)
    {
      ghost var ex := ExerciseIndex();
      r := TryOrder(law, justification);
      if r.Thrown? || |justification| != 2 {
        return;
      }
      ghost var first := Attempt(law, justification, ex).value;
      var reversed := [justification[1], justification[0]];
      var second := TryOrder(law, reversed);
      if second.Thrown? {
        return Thrown(second.fault);
      }
      AnyStarredAppend(first, Attempt(law, reversed, ex).value);
      r := Ok(r.value + second.value);
    }

    /** makeMatches: every unlocked law is tried on the selection and, for exactly
        two, on the reversed pair; each success is listed and counted. Selecting
        disables undo. An exception ends the loop. */
    method MakeMatches(justification: seq<Context>, registry: Registry) returns (r: Outcome<nat>)
      requires Valid()
      modifies this
      ensures Valid()
      ensures proof == old(proof) && undo == old(undo).(canUndo := false)
      ensures exercise == old(exercise) && records == old(records)
      ensures r == (var es :- Scan(registry.unlockedLaws, justification, ExerciseIndex()); Ok(|es|))
      ensures r.Ok? ==> deductions.entries == Scan(registry.unlockedLaws, justification, ExerciseIndex()).value
      ensures r.Thrown? ==>
        exists k :: 0 <= k < |registry.unlockedLaws|
          && Collect(Results(registry.unlockedLaws, justification, ExerciseIndex())[..k]).Ok?
          && Results(registry.unlockedLaws, justification, ExerciseIndex())[k].Thrown?
          && deductions.entries == Collect(Results(registry.unlockedLaws, justification, ExerciseIndex())[..k]).value
               + ListedBeforeFault(registry.unlockedLaws[k], justification, ExerciseIndex())
      ensures deductions.hasCircularity <==> AnyStarred(deductions.entries)
    {
      undo := undo.(canUndo := false);
      deductions := DeductionsPane([], false);
      var laws := registry.unlockedLaws;
      ghost var ex := ExerciseIndex();
      ghost var results := Results(laws, justification, ex);
      var numMatches := 0;
      var i := 0;
      while i < |laws|
        invariant 0 <= i <= |laws|
        invariant Collect(results[..i]).Ok?
        invariant deductions.entries == Collect(results[..i]).value
        invariant numMatches == |deductions.entries|
        invariant deductions.hasCircularity <==> AnyStarred(deductions.entries)
        invariant proof == old(proof) && undo == old(undo).(canUndo := false)
        invariant exercise == old(exercise) && records == old(records) && ExerciseIndex() == ex
      {
        var law := laws[i];
        CollectStep(results, i);
        ghost var before := deductions.entries;
        var found := TryUnlockedLaw(law, justification);
        if found.Thrown? {
          CollectPrefixThrown(results, i + 1);
          AnyStarredAppend(before, ListedBeforeFault(law, justification, ex));
          assert results[i].Thrown?;
          return Thrown(found.fault);
        }
        AnyStarredAppend(before, TryLaw(law, justification, ex).value);
        numMatches := numMatches + found.value;
        i := i + 1;
      }
      assert results[..i] == results;
      r := Ok(numMatches);
    }

    /** appendToProof: one more line, counted, and remembered for undo. */
    method AppendToProof(line: ProofLine)
      modifies this
      ensures proof.lines == old(proof.lines) + [line]
      ensures proof.numlines == old(proof.numlines) + 1 && proof.hasCircularity == old(proof.hasCircularity)
      ensures undo == old(undo).(deletedLines := old(undo.deletedLines) + 1)
      ensures deductions == old(deductions) && exercise == old(exercise) && records == old(records)
    {
      proof := proof.(lines := proof.lines + [line], numlines := proof.numlines + 1);
      undo := undo.(deletedLines := undo.deletedLines + 1);
    }

    /** deduce: snapshot the counter and flag for undo; a formula or a term is only
        added to its window; otherwise the proof gets a line (starred, and the proof
        flagged, when the law is at or after the exercise's law); reaching the
        exercise's conclusion adds the victory line, forbids undo, unlocks the
        exercise's law and, for a non-circular proof, records the length and lowers
        the personal best. Unlocking touches only the registry and the laws, the rest
        only the panes and the exercise, so the model unlocks first. */
    method Deduce(conclusion: Context, justification: seq<Context>, law: Law, registry: Registry)
      requires Valid() && registry.Valid()
      requires exercise != null ==> exercise.law in registry.laws
      modifies this, registry, registry.laws, exercise
      ensures exercise == old(exercise) && deductions == old(deductions)
      ensures Valid() && registry.Valid() && registry.laws == old(registry.laws)
      ensures old(registry.ClonesFollow()) ==> registry.ClonesFollow()
      ensures Solves(conclusion, exercise) && !conclusion.Formula? && !conclusion.TermContext? ==>
        exercise.law.unlocked
      ensures !(Solves(conclusion, exercise) && !conclusion.Formula? && !conclusion.TermContext?) ==>
        registry.unlockedLaws == old(registry.unlockedLaws)
      ensures exercise != null && Solves(conclusion, exercise) && !conclusion.Formula? && !conclusion.TermContext? ==>
        registry.unlockedLaws == old(registry.unlockedLaws)
          + (if old(exercise.law.unlocked) then [] else [exercise.law])
          + (if old(exercise.law.unlocked) || exercise.law.clone == null || old(exercise.law.clone.unlocked) then []
             else [exercise.law.clone])
      ensures forall l :: l in registry.laws ==>
        l.unlocked == (old(l.unlocked) || (exercise != null && Solves(conclusion, exercise) &&
          !conclusion.Formula? && !conclusion.TermContext? && !old(exercise.law.unlocked) && (l == exercise.law || l == exercise.law.clone)))
      ensures undo.numlines == old(proof.numlines) && undo.hasCircularity == old(proof.hasCircularity)
      ensures undo.canUndo ==> proof.lines[..|proof.lines| - undo.deletedLines] == old(proof.lines)
      ensures conclusion.Formula? || conclusion.TermContext? ==>
        proof == old(proof) && undo.canUndo && records == old(records)
      ensures !(conclusion.Formula? || conclusion.TermContext?) ==>
        && proof.lines == old(proof.lines)
             + [Step(JustificationSentences(justification), conclusion, law.name, Starred(law.index, ExerciseIndex()))]
             + (if Solves(conclusion, exercise) then [Qed(old(exercise.solved))] else [])
        && proof.hasCircularity == (old(proof.hasCircularity) || Starred(law.index, ExerciseIndex()))
        && undo.canUndo == !Solves(conclusion, exercise)
      ensures !(Solves(conclusion, exercise) && !conclusion.Formula? && !conclusion.TermContext?) ==>
        records == old(records)
        && (exercise != null ==> exercise.solved == old(exercise.solved) && exercise.personalBest == old(exercise.personalBest))
      ensures Solves(conclusion, exercise) && !conclusion.Formula? && !conclusion.TermContext? ==>
        && exercise.solved
        && records == (if proof.hasCircularity then old(records) else RecordAfter(old(records), exercise.name, proof.numlines))
        && exercise.personalBest == (if proof.hasCircularity || proof.numlines >= old(exercise.personalBest)
                                     then old(exercise.personalBest) else proof.numlines)
      ensures exercise != null ==> exercise.personalBest <= old(exercise.personalBest)
    {
      if Solves(conclusion, exercise) && !conclusion.Formula? && !conclusion.TermContext? {
        registry.Unlock(exercise.law);
      }
      Conclude(conclusion, justification, law);
    }

    /** deduce apart from unlocking: the undo snapshot, the proof line and the victory
        check. */
    method Conclude(conclusion: Context, justification: seq<Context>, law: Law)
      requires Valid()
      modifies this, exercise
      ensures Valid()
      ensures exercise == old(exercise) && deductions == old(deductions)
      ensures undo.numlines == old(proof.numlines) && undo.hasCircularity == old(proof.hasCircularity)
      ensures undo.canUndo ==> proof.lines[..|proof.lines| - undo.deletedLines] == old(proof.lines)
      ensures conclusion.Formula? || conclusion.TermContext? ==>
        proof == old(proof) && undo.canUndo && records == old(records)
      ensures !(conclusion.Formula? || conclusion.TermContext?) ==>
        && proof.lines == old(proof.lines)
             + [Step(JustificationSentences(justification), conclusion, law.name, Starred(law.index, ExerciseIndex()))]
             + (if Solves(conclusion, exercise) then [Qed(old(exercise.solved))] else [])
        && proof.hasCircularity == (old(proof.hasCircularity) || Starred(law.index, ExerciseIndex()))
        && undo.canUndo == !Solves(conclusion, exercise)
      ensures !(Solves(conclusion, exercise) && !conclusion.Formula? && !conclusion.TermContext?) ==>
        records == old(records)
        && (exercise != null ==> exercise.solved == old(exercise.solved) && exercise.personalBest == old(exercise.personalBest))
      ensures Solves(conclusion, exercise) && !conclusion.Formula? && !conclusion.TermContext? ==>
        && exercise.solved
        && records == (if proof.hasCircularity then old(records) else RecordAfter(old(records), exercise.name, proof.numlines))
        && exercise.personalBest == (if proof.hasCircularity || proof.numlines >= old(exercise.personalBest)
                                     then old(exercise.personalBest) else proof.numlines)
      ensures exercise != null ==> exercise.personalBest <= old(exercise.personalBest)
    {
      undo := UndoButton(true, proof.numlines, proof.hasCircularity, 0);
      if conclusion.Formula? || conclusion.TermContext? {
        return;
      }
      var sentences := JustificationSentences(justification);
      var starred := exercise != null && law.index >= exercise.law.index;
      if starred {
        proof := proof.(hasCircularity := true);
      }
      AppendToProof(Step(sentences, conclusion, law.name, starred));
      if exercise != null && ContextName(conclusion) == ContextName(exercise.law.rule.conclusion) {
        Solved();
      }
    }

    /** The exercise is solved: no undo, the victory line and, for a non-circular
        proof, the length recorded and the personal best lowered. */
    method Solved()
      requires Valid() && exercise != null
      modifies this, exercise
      ensures Valid()
      ensures exercise == old(exercise) && deductions == old(deductions)
      ensures proof.lines == old(proof.lines) + [Qed(old(exercise.solved))]
      ensures proof.numlines == old(proof.numlines) + 1 && proof.hasCircularity == old(proof.hasCircularity)
      ensures !undo.canUndo && undo.deletedLines == old(undo.deletedLines) + 1
      ensures undo.numlines == old(undo.numlines) && undo.hasCircularity == old(undo.hasCircularity)
      ensures exercise.solved
      ensures records == (if proof.hasCircularity then old(records) else RecordAfter(old(records), exercise.name, proof.numlines))
      ensures exercise.personalBest == (if proof.hasCircularity || proof.numlines >= old(exercise.personalBest)
                                        then old(exercise.personalBest) else proof.numlines)
    {
      undo := undo.(canUndo := false);
      var again := exercise.solved;
      AppendToProof(Qed(again));
      if !again {
        exercise.solved := true;
      }
      var len := proof.numlines;
      if !proof.hasCircularity {
        records := RecordAfter(records, exercise.name, len);
        if len < exercise.personalBest {
          exercise.personalBest := len;
        }
      }
    }

    /** The undo button: refused unless allowed; otherwise the counter and the flag
        go back to their values before the last deduction, its lines are removed,
        and undo is disallowed until the next deduction. */
    method Undo() returns (undone: bool)
      requires Valid()
      modifies this
      ensures Valid()
      ensures undone == old(undo.canUndo)
      ensures !undone ==> proof == old(proof) && undo == old(undo)
      ensures undone ==>
        && proof.numlines == old(undo.numlines) && proof.hasCircularity == old(undo.hasCircularity)
        && proof.lines == old(proof.lines)[..|old(proof.lines)| - old(undo.deletedLines)]
        && undo == old(undo).(canUndo := false)
      ensures deductions == old(deductions) && exercise == old(exercise) && records == old(records)
    {
      if !undo.canUndo {
        return false;
      }
      undo := undo.(canUndo := false);
      proof := ProofPane(proof.lines[..|proof.lines| - undo.deletedLines], undo.numlines, undo.hasCircularity);
      return true;
    }
  }

  // ----- new variables for the term window -----

  /** The names of the variables in the term window (`child.term.argList[0].name`,
      read as in the legality check); the first term that throws ends the scan. */
  function WindowNames(window: seq<Term>): Outcome<set<string>>
    decreases |window|
  {
    if |window| == 0 then Ok({})
    else
      var names :- WindowNames(window[..|window| - 1]);
      var last :- FirstArgName(window[|window| - 1]);
      Ok(if last.Some? then names + {last.value} else names)
  }

  /** The window's names are exactly the names of its variables, and the scan
      throws exactly when some term has no first argument. */
  lemma {:induction false} WindowNamesSpec(window: seq<Term>)
    ensures WindowNames(window).Thrown? <==> exists i :: 0 <= i < |window| && FirstArgName(window[i]).Thrown?
    ensures WindowNames(window).Ok? ==> forall n ::
      n in WindowNames(window).value <==> exists i :: 0 <= i < |window| && FirstArgName(window[i]) == Ok(Some(n))
    decreases |window|
  {
    if |window| > 0 {
      var k := |window| - 1;
      var prefix := window[..k];
      WindowNamesSpec(prefix);
      forall i | 0 <= i < k ensures prefix[i] == window[i] { }
      if WindowNames(prefix).Ok? && FirstArgName(window[k]).Ok? {
        var names := WindowNames(window).value;
        forall n ensures n in names <==> exists i :: 0 <= i < |window| && FirstArgName(window[i]) == Ok(Some(n)) {
          if n in names && n !in WindowNames(prefix).value {
            assert FirstArgName(window[k]) == Ok(Some(n));
          }
          if exists i :: 0 <= i < |window| && FirstArgName(window[i]) == Ok(Some(n)) {
            var i :| 0 <= i < |window| && FirstArgName(window[i]) == Ok(Some(n));
            if i < k {
              assert FirstArgName(prefix[i]) == Ok(Some(n));
            }
          }
        }
      }
      if WindowNames(window).Thrown? && WindowNames(prefix).Ok? {
        assert FirstArgName(window[k]).Thrown?;
      }
    }
  }

  lemma {:induction false} WindowNamesPrefixThrown(window: seq<Term>, k: nat)
    requires k <= |window| && WindowNames(window[..k]).Thrown?
    ensures WindowNames(window) == WindowNames(window[..k])
    decreases |window| - k
  {
    if k < |window| {
      assert window[..k + 1][..k] == window[..k];
      WindowNamesPrefixThrown(window, k + 1);
    } else {
      assert window[..k] == window;
    }
  }

  /** `name` is the k-th name of its sequence and every earlier one is taken. */
  predicate FirstFree(name: string, k: nat, bound: bool, used: set<string>) {
    name == VariableName(k, bound) && forall m :: 0 <= m < k ==> VariableName(m, bound) in used
  }

  /** The name the new-variable buttons pick: the first name in the free (or bound)
      sequence that no variable in the term window has. */
  function NewVariableName(window: seq<Term>, bound: bool): (r: Outcome<string>)
    ensures r.Ok? <==> WindowNames(window).Ok?
    ensures r.Ok? ==> r.value !in WindowNames(window).value
    ensures r.Ok? ==> exists k: nat :: FirstFree(r.value, k, bound, WindowNames(window).value)
  {
    var names :- WindowNames(window);
    var k := FreshIndex(names, 0, bound);
    assert FirstFree(VariableName(k, bound), k, bound, names);
    Ok(VariableName(k, bound))
  }

  /** freeButtonClick / boundButtonClick: try the names in order, each against
      every term in the window, until one is unused. */
  method PickName(window: seq<Term>, bound: bool) returns (r: Outcome<string>)
    ensures r == NewVariableName(window, bound)
  {
    ghost var used := if WindowNames(window).Ok? then WindowNames(window).value else {};
    var num := 0;
    while true
      invariant num > 0 ==> WindowNames(window).Ok?
      invariant forall m :: 0 <= m < num ==> VariableName(m, bound) in used
      decreases |used| - num
    {
      NamesCounted(num, used, bound);
      var str;
      if bound {
        str := BoundVariableName(num);
      } else {
        str := FreeVariableName(num);
      }
      assert str == VariableName(num, bound);
      var found := false;
      var i := 0;
      while i < |window|
        invariant 0 <= i <= |window|
        invariant WindowNames(window[..i]).Ok?
        invariant found <==> str in WindowNames(window[..i]).value
      {
        assert window[..i + 1][..i] == window[..i];
        var name := FirstArgName(window[i]);
        if name.Thrown? {
          WindowNamesPrefixThrown(window, i + 1);
          return Thrown(name.fault);
        }
        if name.value == Some(str) {
          found := true;
        }
        i := i + 1;
      }
      assert window[..i] == window;
      if !found {
        assert FreshIndex(used, num, bound) == num;
        FreshIndexFrom(used, num, bound);
        return Ok(str);
      }
      num := num + 1;
    }
  }
}
